=== FILE: README.md ===
# Lu Estilo service core in Dafny

A model of the business rules of the Lu Estilo e-commerce back end (a FastAPI
service over SQLAlchemy). It covers the service layer, with the database
replaced by in-memory tables (sequences of records with an autoincrement
counter) and every raised `HTTPException` replaced by a value
`Err(status, detail)` of the `Result` datatype.

- `Outcomes` (outcomes.dfy): `Option` and `Result`, plus the HTTP status codes used.
- `Text` (text.dfy): ASCII lower-casing, `str.replace` of one character, and
  `ILIKE '%p%'` as a case-insensitive substring test.
- `Query` (query.dfy): the query-building pieces every service uses.
  `Filter` is a chain of `.filter(...)`, `First` is `.first()`, and `Page` is
  `.offset(skip).limit(limit)`.
- `Users` (users.dfy): the user registry. It covers lookup with its
  owner-or-admin rule, creation with the email and CPF uniqueness checks,
  partial update, deletion and filtered listing. It also keeps the table
  invariant (unique ids, emails and CPFs) with one preservation lemma per
  operation.
- `Products` (products.dfy): product listing (filter conjunction, then the
  page) and product creation with one image row per stored path.
- `Orders` (orders.dfy): four parts.
  - The three enums and their string values.
  - Validation of the `OrderItemCreate`, `OrderCreate` and `OrderUpdate`
    request bodies, with 422 for a body that fails.
  - `create_order`: a method that loops over the items. It calls the stock
    oracle once per item, captures each sale price, and computes the total.
  - `list_orders`, with ownership scoping, and `get_order_by_id`.
- `Auth` (auth.dfy): the auth service and the request gates.
  - `register`, `login` and `refresh_token`.
  - The `get_current_user` and `admin_required` dependencies.
  - The token decoder of the JWT service as it is written, and what it does
    to those callers.
- `Files` (files.dfy): upload naming.
  - The `UPLOAD_PATH` check.
  - The product folder built from sanitised category and product names.
  - Each saved file's name: a fresh name plus the upload's suffix.
  - Best-effort deletion that logs failures and never raises.

Things outside the model are parameters:
- the password hash and the password check (`hash`, `verify`);
- the clock (`now`);
- the uuid of each saved file (`freshName`);
- the outcome of decoding a presented token (`DecodeOutcome`);
- the stock check-and-decrement of the product service, which is an oracle
  `reserve(n, productId, quantity)`;
- whether unlinking a file fails (`fails`).

Amounts are exact integers in cents, matching the `Numeric(10, 2)` columns.
Timestamps are integers.

Role literals differ between the files, and the model keeps each one:
- the user service compares roles with `"admin"` (`Users.ADMIN`);
- the order service compares with `"ADMIN"` (`Orders.ADMIN`);
- `admin_required` compares with `RoleEnum.ADMIN`, which is a parameter here.

Truthiness tests and `is not None` tests are kept apart, as in the code:
- an order id of 0, a client id of 0, and an empty name, email or category
  filter nothing;
- `stock=False` and `max_price=0` do filter.

An unhandled Python exception is modelled as `Err(500, message)`, the
answer FastAPI gives for it.

## Model

| member | source | states |
|---|---|---|
| Query.Filter | app/services/product_service.py:32-33 | The filtered rows are exactly the rows satisfying the filter, never more than the table holds. |
| Query.FilterAppend | app/services/product_service.py:32-35 | Filtering a concatenation is filtering each part, in order. With `FilterOne`, this fixes the order and multiplicity of the kept rows: table order, each row once. |
| Query.FilterOne | app/services/product_service.py:32-33 | A single row is kept exactly when it satisfies the filter. |
| Query.Page | app/services/product_service.py:35 | `OFFSET skip LIMIT limit` returns at most `limit` rows. It returns nothing once `skip` passes the end, otherwise `min(limit, n - skip)` rows. Row `k` is row `skip + k` of its input. |
| Text.ILikeIgnoresCase | app/services/user_service.py:35 | An ILIKE match does not depend on the letter case of the column or of the pattern. |
| Users.GetUserById | app/services/user_service.py:48-64 | A caller who is neither admin nor the owner gets 403 before any lookup. An absent id gets 404 "User not found.". An admin or the owner gets the stored user with that id whenever it exists. |
| Users.GetUserByIdAsWritten | app/services/user_service.py:48-52 | As written, the refusal reads the undefined `ACESS_DENIED`, so the refused caller gets a 500 `AttributeError`. Every other case agrees with the intended lookup. |
| Users.AccessDeniedTypo | app/services/user_service.py:48-52 | For every refused caller, the code as written answers 500 where 403 was intended. |
| Users.AccessDeniedTypoExample | app/services/user_service.py:48-52 | User 2, a plain user, asking for user 1 gets the `AttributeError` answer. |
| Users.CheckUnique | app/services/user_service.py:151-176 | A conflict is 409 with the given detail, and only when some row holds the value and is not the excluded id. With no exclusion, the check passes exactly when no row holds the value. With an exclusion, it passes whenever every row holding the value is the excluded one. |
| Users.FindByEmail | app/services/user_service.py:66-70 | `get_user_by_email` gives the first row, in table order, with that email, and nothing exactly when no row has it. |
| Users.CheckUniqueExcludesOwnRow | app/services/user_service.py:155-158 | With unique ids and keys, the check that excludes an id passes exactly when every row holding the value is that id's own row. |
| Users.CreateUser | app/services/user_service.py:79-96 | Corrected, with `role` part of the create request: a taken email gives 409 "Email already registered." and is checked first; then a taken CPF gives 409 "CPF already registered.". Success happens exactly when both are free. It appends one user with the next id, the hashed password and the other fields copied. |
| Users.CreateUserAsWritten | app/services/user_service.py:79-96 | As written, creation never succeeds: the two 409s are as intended, and a request with a free email and CPF gets the 500 of reading `role` from a create schema that has none. |
| Users.CreateUserMissingRole | app/services/user_service.py:90 | Wherever the intended service stores the new user, the code as written answers 500. On every conflict the two agree. |
| Users.CreatePreservesValid | app/services/user_service.py:79-96 | Creation keeps ids, emails and CPFs unique and the counter past every id. |
| Users.UpdateUser | app/services/user_service.py:99-134 | A non-admin on another id gets 403 (update message). An absent id gets 404. A role change by a non-admin gets 403 "Only administrators can update user roles". A 409 comes only from an email or CPF held by another row. An allowed update of an existing id succeeds whenever no other row holds the new email or CPF and a role change comes from an admin. Success keeps the id, the table size and the counter. |
| Users.UpdateEmailConflict | app/services/user_service.py:121-122 | With a valid table, an allowed update whose new email is held by another row gets 409 "Email already registered.". |
| Users.UpdateCpfConflict | app/services/user_service.py:121-124 | With a valid table, an allowed update whose email passes its check, but whose new CPF is held by another row, gets 409 "CPF already registered.". |
| Users.UpdateChangesOnlySuppliedFields | app/services/user_service.py:121-130 | A successful update sets exactly the supplied fields, storing the password hashed. Every other field and every other user is unchanged. |
| Users.UpdatePreservesValid | app/services/user_service.py:121-134 | Updates keep ids, emails and CPFs unique, because the conflict checks ignore only the updated row itself. |
| Users.DeleteUser | app/services/user_service.py:137-147 | Deleting one's own id gives 403 even for an admin. A non-admin deleting another id gets 403. An admin's delete succeeds exactly when the id exists, and an absent id gets 404 "User not found.". On success the table shrinks by one. |
| Users.DeleteUserAsWritten | app/services/user_service.py:137-147 | As written, a non-admin deleting another id gets the 500 of the misspelt attribute in the lookup. Every other request is answered as by `DeleteUser`: 403 for one's own id, 404 for an admin deleting an absent id, and success exactly when an admin deletes an existing id. |
| Users.DeleteAccessDeniedTypo | app/services/user_service.py:144 | For a non-admin deleting another id, the code as written answers 500 where the intended answer is 403, whether or not the id exists. |
| Users.RemoveRowById | app/services/user_service.py:146 | Removing one row from a table with unique ids leaves exactly the rows with another id. |
| Users.DeleteRemovesExactlyThatUser | app/services/user_service.py:144-147 | With unique ids, the users left after a delete are exactly those with another id. |
| Users.DeletePreservesValid | app/services/user_service.py:144-147 | Deletion keeps the table invariant. |
| Users.ListUsers | app/services/user_service.py:24-39 | Row `k` of the result is match `skip + k`, where the matches are the stored users, in table order, whose name and email contain the non-empty filters case-insensitively. The result has `min(limit, matches - skip)` rows, and none once `skip` passes the matches. |
| Users.ListUsersUnfiltered | app/services/user_service.py:34-39 | Without filters, or with empty ones, listing is the plain window onto the table. |
| Users.ListUsersComplete | app/services/user_service.py:32-39 | Every matching user is in a first page that is large enough. |
| Products.ListProducts | app/services/product_service.py:13-35 | The result is the window of the products matching every given filter. `stock=True` means stock > 0 and `stock=False` means stock = 0. A non-empty category is a case-insensitive substring match. `max_price` means sale price ≤ it, including 0. Row `k` of the result is match `skip + k`, in table order. The length is `min(limit, matches - skip)`, and the result is empty when `skip` is past the matches. |
| Products.ListProductsUnfiltered | app/services/product_service.py:25-35 | With no filter, or an empty category, listing is the plain window onto the table. |
| Products.ListProductsComplete | app/services/product_service.py:22-35 | Every matching product is in a first page that is large enough. |
| Products.CreateImages | app/services/product_service.py:37-43 | One image row per path, in order: each carries the product's id and its path, with consecutive row ids. |
| Products.CreateProduct | app/services/product_service.py:45-59 | It stores the schema fields unchanged under the next product id and appends one image row per path pointing at it. Earlier image rows are kept. |
| Products.CreateProductImagePaths | app/services/product_service.py:56 | The set of paths of the new image rows equals the set of given paths. |
| Products.CreatePreservesValid | app/services/product_service.py:51-57 | Product ids stay unique, and every image row still belongs to a product. |
| Orders.ParseStatus | app/enums/order_status_enum.py:3-7 | A string parses exactly when it is one of the four status values, and it parses to the member with that value. |
| Orders.StatusRoundTrip | app/enums/order_status_enum.py:3-7 | Every status parses back from its value. |
| Orders.ParseMethod | app/enums/payment_method_enum.py:3-8 | A string parses exactly when it is one of the five payment-method values, and it parses to the member with that value. |
| Orders.MethodRoundTrip | app/enums/payment_method_enum.py:3-8 | Every payment method parses back from its value. |
| Orders.ParsePaymentStatus | app/enums/payment_status_enum.py:3-8 | A string parses exactly when it is one of the five payment-status values, and it parses to the member with that value. |
| Orders.PaymentStatusRoundTrip | app/enums/payment_status_enum.py:3-8 | Every payment status parses back from its value. |
| Orders.ParseOrderItem | app/schemas/order_schema.py:31-49 | An item is valid exactly when `product_id` is present and `quantity` is present and > 0. `price_at_moment` is optional and copied as given. An invalid item gives 422. |
| Orders.ParseOrderItems | app/schemas/order_schema.py:141-145 | A list is valid exactly when every item is, and it keeps their order. |
| Orders.ParseOrderCreate | app/schemas/order_schema.py:110-145 | Valid exactly when `client_id`, three valid enum values and the item list are present and every item is valid. `total_amount` is optional, and so is the inherited `created_at`, which must be a datetime when present. The fields are carried over. |
| Orders.OrderCreateRoundTrip | app/schemas/order_schema.py:110-145 | Every order request with positive quantities parses back from the body that carries it. |
| Orders.ParseOrderUpdate | app/schemas/order_schema.py:147-159 | Every field is optional. A present enum must hold a valid value, and a present `created_at` must be a datetime. Present fields are carried over with their values. |
| Orders.OrderUpdateRoundTrip | app/schemas/order_schema.py:147-159 | Every update parses back from the body that carries it: an absent field stays absent, and a present enum arrives as its string value. |
| Orders.EmptyOrderUpdateIsValid | app/schemas/order_schema.py:147-159 | An empty update body is valid and sets nothing. |
| Orders.PriceItems | app/services/order_service.py:69-85 | It calls the stock oracle once per item, in order, with that item's product and quantity, and stops at the first refusal with that refusal's error. On success, item `k` carries the request's product and quantity and the reserved product's sale price. The running total is the sum of price × quantity. |
| Orders.CreateOrder | app/services/order_service.py:68-105 | It calls the stock oracle once per item, in order, with that item's product and quantity. It succeeds exactly when every reservation does; otherwise the first refusal's error is the answer and no later item is reserved. It stores one item per request item with the same product and quantity, the reserved product's sale price and the new order's id. The total is the sum of price × quantity, and a client-supplied total is never used. It copies client, status, payment method and payment status, stamps `now`, and keeps the tables valid. |
| Orders.ValidAfterPlacing | app/services/order_service.py:95-100 | Appending the order and items linked to its id keeps order ids unique and every item attached to an order. |
| Orders.ListOrders | app/services/order_service.py:28-64 | Only stored orders are returned. A non-"ADMIN" caller sees only their own orders. An admin's non-zero `client_id` narrows the result to that client. The date bounds are inclusive. A non-zero `order_id` and a status are equality filters. A non-empty category keeps orders with an item whose product's category contains it. |
| Orders.ListOrdersComplete | app/services/order_service.py:39-64 | Every order passing all filters is listed. |
| Orders.ListOrdersZeroIdIsNoFilter | app/services/order_service.py:53-54 | An `order_id` of 0 lists the same orders as no `order_id`. |
| Orders.ListOrdersNonAdminIgnoresClientFilter | app/services/order_service.py:58-61 | For a non-admin the `client_id` argument changes nothing. |
| Orders.ListOrdersAdminUnfiltered | app/services/order_service.py:39-64 | An admin with no filter gets the whole table. |
| Orders.GetOrderById | app/services/order_service.py:108-115 | It answers 404 "Order not found." exactly when no order has the id; otherwise it returns a stored order with that id. |
| Auth.Register | app/services/auth_service.py:20-21 | The outcome is the corrected create_user's. On success the stored email is the given one and the password is its hash. |
| Auth.Login | app/services/auth_service.py:23-34 | An unknown email always fails. Every failure is the same 401 "Invalid email or password". A success is a token whose only claim is `sub` = the email of a stored user whose hash verifies the password. |
| Auth.LoginWithRightPassword | app/services/auth_service.py:24-34 | With unique emails, the right password always logs in. |
| Auth.LoginFailuresIndistinguishable | app/services/auth_service.py:25-29 | A wrong password and an unknown email give identical answers. |
| Auth.RefreshToken | app/services/auth_service.py:36-55 | It succeeds exactly for a payload with a non-empty `sub`, issuing a token for that same subject. A missing `sub` gives 401 "Invalid refresh token". When decoding raises the library's `InvalidTokenError` it gives 401 "Invalid refresh token", and when it raises `ExpiredSignatureError` it gives 401 "Refresh token expired". A decoder HTTP error passes through. |
| Auth.RefreshSeesDecoderMessages | app/services/jwt_service.py:63-72 | The service's decoder never lets an expired or invalid token error out, so `refresh_token` answers an expired token with 401 "Token has expired" and an invalid one with 401 "Invalid token", with the decoder as written and with the fixed one. |
| Auth.RefreshKeepsSubject | app/services/auth_service.py:31-45 | Refreshing a token for a logged-in email yields the token login issued. |
| Auth.GetCurrentUser | app/dependencies.py:12-32 | It returns the stored user whose email is the token's `sub`. A decoder HTTP error passes through unchanged. Every other failure is 401 "Could not validate credentials". |
| Auth.AdminRequired | app/dependencies.py:34-42 | It passes the very same user exactly when its role is the admin value; anyone else gets 403 "Access restricted to administrators.". |
| Auth.AdminGateSound | app/dependencies.py:34-42 | Whoever passes authentication and the admin check is a stored admin and the token's subject. |
| Auth.DecodeTokenAsWritten | app/services/jwt_service.py:49-77 | The decoder as written returns the `sub` string itself. Expired and invalid tokens give their 401s. A missing `sub` and any other failure give 500. |
| Auth.GetCurrentUserAsWritten | app/dependencies.py:19-27 | With the decoder as written, `get_current_user` rejects every token, including valid ones. |
| Auth.RefreshTokenAsWritten | app/services/auth_service.py:36-55 | With the decoder as written, `refresh_token` never succeeds, and a valid token gets 500. |
| Auth.FixedDecodeToken | app/services/jwt_service.py:49-77 | The decoder as intended returns the payload, answers a missing `sub` with its 401, and keeps the other HTTP errors. |
| Auth.ValidTokenRejectedAsWritten | app/dependencies.py:19-32 | A registered user's valid token is refused as written, and authenticates that user with the fixed decoder. |
| Auth.RefreshBrokenAsWritten | app/services/auth_service.py:37-45 | A valid refresh token gets 500 as written, and a token for the same subject with the fixed decoder. |
| Auth.MissingSubBecomesServerError | app/services/jwt_service.py:56-77 | A token without `sub` gets 500 as written, and the intended 401 with the fixed decoder. |
| Auth.FixedDecoderErrorsPassThrough | app/dependencies.py:19-27 | Expired, invalid and undecodable tokens get the same answer with either decoder. |
| Files.NewFileService | app/services/file_service.py:10-15 | Construction fails exactly when `UPLOAD_PATH` is unset or empty; otherwise the upload root is that value. |
| Files.SanitizeCharwise | app/services/file_service.py:30-31 | Sanitising keeps the length: a space becomes `_`, an ASCII capital becomes its small letter, and nothing else changes. |
| Files.SanitizeClean | app/services/file_service.py:30-31 | A sanitised segment holds no space and no ASCII capital. |
| Files.SanitizeIdempotent | app/services/file_service.py:30-31 | Sanitising twice is sanitising once. |
| Files.SanitizeKeepsHead | app/services/file_service.py:30-31 | Sanitising keeps a name empty or non-empty, and keeps a leading "/". |
| Files.BuildProductFolderAsWritten | app/services/file_service.py:29-32 | As written, the folder is the root, then the sanitised category, then the sanitised product name, joined with pathlib's `/`. A category starting with "/" drops the root. A product name starting with "/" drops the root and the category. |
| Files.FolderEscapesRootExample | app/services/file_service.py:32 | With root "/up", category "/t" and product "x", the folder as written is "/t/x", outside the upload root. |
| Files.SafeSegmentCharwise | app/services/file_service.py:30-31 | A corrected segment is the name character by character: a space or "/" becomes `_`, every character of "." or ".." becomes `_`, and an ASCII capital becomes its small letter. It holds no "/" and no space, and is never "." or "..". |
| Files.BuildProductFolder | app/services/file_service.py:29-32 | Corrected: the folder is the root or starts with the root and "/". With both names non-empty it is the root, "/", the category's safe segment, "/", then the product name's safe segment. pathlib drops an empty name's level. Each level holds no "/" and is never "." or "..", so the folder also resolves under the root. |
| Files.BuildProductFolderAgrees | app/services/file_service.py:29-32 | For names without "/" that are neither "." nor "..", the corrected folder and the folder as written are the same. |
| Files.Suffix | app/services/file_service.py:35 | A suffix is empty, or a dot followed by at least one character with no further dot or separator. |
| Files.SuffixIsTail | app/services/file_service.py:35 | The suffix is a tail of the file name. |
| Files.SuffixAtLastDot | app/services/file_service.py:35 | In a name without a separator, the suffix runs from the last dot to the end whenever that dot is neither first nor last. |
| Files.NoSuffixForLeadingDot | app/services/file_service.py:35 | A name whose only dot is its first character has an empty suffix. |
| Files.SuffixExample | app/services/file_service.py:35 | The suffix of "archive.tar.gz" is ".gz": it starts at the last dot. |
| Files.NoSuffixExample | app/services/file_service.py:35 | ".bashrc" has an empty suffix: a leading dot does not start one. |
| Files.SaveFile | app/services/file_service.py:34-42 | The saved path is the destination folder, a separator, the fresh name and the upload's suffix. |
| Files.SaveInto | app/services/file_service.py:24-27 | One path per image, in upload order. Each is the folder joined with that image's fresh name and suffix, so it lies inside the folder. |
| Files.SaveImagesAsWritten | app/services/file_service.py:18-27 | As written: one path per image, in upload order, each the folder `build_product_folder` builds as written, joined with the image's fresh name and suffix. |
| Files.SaveImages | app/services/file_service.py:18-27 | Corrected: one path per image, in upload order, each the corrected product folder joined with the image's fresh name and suffix. |
| Files.SaveImagesAgrees | app/services/file_service.py:18-32 | For names without "/" that are neither "." nor "..", the corrected and the as-written saves give the same paths. |
| Files.SavedPathsDistinct | app/services/file_service.py:35-37 | Non-repeating fresh names of one length give every saved image its own path. |
| Files.DeleteFiles | app/services/file_service.py:44-51 | Deletion never fails. Exactly the listed regular files whose unlink does not fail are removed, and folders are untouched. A listed existing file is logged exactly when its unlink fails. |
| Files.DeleteFilesIdempotent | app/services/file_service.py:44-51 | A second pass over the same paths, with the same unlink failures, removes nothing more. |

## Left out

- HTTP routing, request parsing outside the order schemas, response models, and the `WWW-Authenticate` header: wiring only.
- Signing and verifying JWTs, token expiry times and the secret key. Decoding is the `DecodeOutcome` (or `JwtDecode`) input; an issued token is the claims it was created from.
- bcrypt: `hash` and `verify` are parameters.
- The database: transactions, `SQLAlchemyError` translation to 500, and unique constraints the schema may declare beyond the email and CPF checks the service performs. Table order stands in for the unspecified SQL row order.
- The stock check-and-decrement of the product service: `validate_and_decrease_stock` is not part of this model and is the `reserve` oracle. Because the oracle is abstract, stock already decremented for earlier items before a later refusal is not modelled.
- Creating folders and copying file contents: only the names are modelled. pathlib's `/` is modelled for empty and absolute segments (`Files.PathJoin`), but not its normalisation: repeated or trailing separators, `.` components, and `str(Path(""))` being ".". In the folder as written, a `..` level is kept lexically and not resolved. The saved file's name is joined with plain "/", because a uuid-prefixed name is never empty and never absolute.
- Files.DeleteFiles: the printed log line is modelled as the list of failed paths; what `path.exists()` and `is_file()` report is the `Disk` input.
- Lower-casing covers ASCII letters only; Python's `str.lower` also maps other Unicode capitals.
- `ILIKE` patterns containing `%` or `_`: the filters require inputs without wildcards, where `ILIKE '%p%'` is a plain case-insensitive substring test.
- `max_price` and `sale_price` are floats in the product schema and are modelled as integer cents.
- A negative `skip` or `limit`: the model takes natural numbers.
- Users.UpdateUser: a field sent explicitly as `null` is not modelled. An update field is either set or absent, so `password: null` (which the code writes through unhashed) has no counterpart.
- Users.CreateUser: the corrected half takes the role from the request, as the service and its tests intend. As written, `UserCreate` declares no `role`, so every create that passes both checks fails with 500 (`Users.CreateUserAsWritten`). Auth.Register is modelled over the corrected create.
- Users.User: a stored user has the `password` and `role` that the service reads and writes. The client model declares `hashed_password` and `phone` and neither of those fields, so its constructor would also reject the service's keywords. That mismatch is not modelled beyond the missing-role finding.
- Users.UpdateUser: `UserUpdate` declares no `role`, so as written an update never carries one and the role guard of `user_service.py:115` cannot fire. The model keeps the guard, with `role` an optional update field.
- Orders.ParseOrderUpdate: the `order_items` field that `OrderUpdate` inherits is left out; nothing in the order service reads it.
- Orders.ParseOrderCreate: reading a datetime from text is abstract: a `created_at` value is either a timestamp or malformed (`DateTimeInput`). `create_order` ignores the parsed value and stamps the clock's time.
- Orders.ListOrders: the eager loading of each order's items is left out; the result is the orders themselves.
- Auth.RefreshToken: the `except` branches of `auth_service.py:46-55` are modelled over the decode outcome, but with the service's own `decode_token` they are dead code, because it converts both library errors into its own 401s first (`Auth.RefreshSeesDecoderMessages`). A real expired refresh token therefore gets "Token has expired", never "Refresh token expired".
- Auth.AdminRequired: the value of `RoleEnum.ADMIN` is a parameter, because the role enum is not part of this model.
- Products.CreateProduct: the optional `images` field of the product schema is not modelled, and the new product's images come only from the paths passed in. The model assumes the product constructor accepts the dumped `images` value. The route builds `ProductCreate` without images, so that value is `None`, and `product_service.py:51` passes it to the `images` relationship of the product model. Whether the ORM accepts `None` for that list collection is library behaviour outside the source, so the model does not decide it. Rejections by the `name` and `bar_code` unique constraints are not modelled either.
- Methods that only the tests exercise (order update and delete, product update and delete, a minimum-price filter, a check that images are present) are not in the service code and are not modelled.

## Findings

| source | as written | input that shows it | evidently intended | confidence | as-written member | corrected member |
|---|---|---|---|---|---|---|
| app/services/user_service.py:51 | The refusal raises with `self.ACESS_DENIED`, an attribute that does not exist (the constant is `ACCESS_DENIED`). The `AttributeError` surfaces as 500. `delete_user` reaches the same line for a non-admin. | User 2 with role "user" asks for user 1 | 403 "Access denied." | high; not executed | Users.AccessDeniedTypoExample | Users.GetUserById |
| app/services/jwt_service.py:56-62 | `decode_token` returns the `sub` string. `get_current_user` then calls `.get("sub")` on it, and the `AttributeError` becomes the 401 credentials error. | A valid token whose `sub` is a registered user's email | The payload is returned and the user is authenticated | high; not executed | Auth.ValidTokenRejectedAsWritten | Auth.FixedDecodeToken |
| app/services/auth_service.py:38-39 | `refresh_token` calls `.get("sub")` on the decoded string. The `AttributeError` escapes both `except` clauses and surfaces as 500. | A valid refresh token with `sub` "a@x" | A new access token for "a@x" | high; not executed | Auth.RefreshBrokenAsWritten | Auth.FixedDecodeToken |
| app/services/user_service.py:90 | `create_user` reads `user_data.role`, but `UserCreate` declares no `role`. Pydantic ignores an undeclared field, so the read raises `AttributeError`, and registration answers 500. | Any request whose email and CPF are free | The user is stored with the requested role | medium; not executed | Users.CreateUserMissingRole | Users.CreateUser |
| app/services/user_service.py:144 | `delete_user` looks the user up through `get_user_by_id`. For a non-admin deleting another id, that reaches the misspelt `ACESS_DENIED` and surfaces as 500. | User 2 with role "user" deletes user 1 | 403 "Access denied." | high; not executed | Users.DeleteAccessDeniedTypo | Users.DeleteUser |
| app/services/file_service.py:30-32 | The sanitising keeps "/". pathlib's `/` drops everything before a segment starting with "/", so the product folder can leave the upload root. The category comes straight from the upload form. | `UPLOAD_PATH` "/up", category "/t", product name "x": the folder is "/t/x" | The folder lies under the upload root, one level per name. The correction also keeps ".." from naming the parent. | medium; not executed | Files.FolderEscapesRootExample | Files.BuildProductFolder |
| app/services/jwt_service.py:57-77 | The 401 raised for a missing `sub` is inside the `try`. The closing `except Exception` catches it and re-raises it as 500. | A validly signed token without a `sub` claim | 401 "Invalid token: 'sub' claim missing" | medium; not executed | Auth.MissingSubBecomesServerError | Auth.FixedDecodeToken |

=== FILE: auth.dfy ===
/** Authentication decisions: registration, login and token refresh, and the
    two request gates (`get_current_user`, `admin_required`).

    Signing and verifying tokens are left abstract. A token that is issued is
    represented by the claims handed to `create_access_token`; a token that is
    presented is represented by what decoding it produced (`DecodeOutcome`).
    Password checking is the parameter `verify(plain, hashed)`.
 */
module Auth {

  import opened Outcomes
  import Users

  const INVALID_CREDENTIALS := "Invalid email or password"
  const INVALID_REFRESH_TOKEN := "Invalid refresh token"
  const REFRESH_TOKEN_EXPIRED := "Refresh token expired"
  const COULD_NOT_VALIDATE := "Could not validate credentials"
  const ADMINS_ONLY := "Access restricted to administrators."

  /** The claims of a decoded token; only "sub" is ever read. */
  datatype Payload = Payload(sub: Option<string>)

  /** What decoding a presented token produced: its payload, or the exception
      the decoder raised. */
  datatype DecodeOutcome =
    | Decoded(payload: Payload)
    | ExpiredSignature
    | InvalidToken
    | HttpFailure(status: int, detail: string)
    | OtherFailure(message: string)

  /** An access token, identified by the claims it was created from. */
  datatype Token = AccessToken(claims: map<string, string>)

  /** `register`: exactly `create_user`. */
  function Register(db: Users.Store, data: Users.UserCreate, hash: string -> string): (r: Result<Users.Saved>)
    ensures r == Users.CreateUser(db, data, hash)
    ensures r.Ok? ==> r.value.user.email == data.email && r.value.user.password == hash(data.password)
  {
    Users.CreateUser(db, data, hash)
  }

  /** `login`: an unknown email and a wrong password fail alike with 401; a
      success issues a token whose only claim is the user's email. */
  function Login(db: Users.Store, email: string, password: string, verify: (string, string) -> bool): (r: Result<Token>)
    ensures r.Err? ==> r == Err(UNAUTHORIZED, INVALID_CREDENTIALS)
    ensures (forall u :: u in db.users ==> u.email != email) ==> r.Err?
    ensures r.Ok? ==> r.value == AccessToken(map["sub" := email])
    ensures r.Ok? ==> exists u :: u in db.users && u.email == email && verify(password, u.password)
  {
    match Users.FindByEmail(db.users, email)
    case None => Err(UNAUTHORIZED, INVALID_CREDENTIALS)
    case Some(user) =>
      if !verify(password, user.password) then Err(UNAUTHORIZED, INVALID_CREDENTIALS)
      else Ok(AccessToken(map["sub" := user.email]))
  }

  /** With unique emails, the right password always logs in. */
  lemma LoginWithRightPassword(db: Users.Store, u: Users.User, password: string, verify: (string, string) -> bool)
    requires Users.UniqueEmails(db.users)
    requires u in db.users && verify(password, u.password)
    ensures Login(db, u.email, password, verify) == Ok(AccessToken(map["sub" := u.email]))
  {
    var found := Users.FindByEmail(db.users, u.email);
    var i :| 0 <= i < |db.users| && db.users[i] == u;
    var j :| 0 <= j < |db.users| && db.users[j] == found.value;
    assert i == j;
  }

  /** A wrong password and an unknown email give the very same answer, so a
      client cannot tell which accounts exist. */
  lemma LoginFailuresIndistinguishable(known: Users.Store, unknown: Users.Store, email: string, password: string,
                                       verify: (string, string) -> bool)
    requires Users.UniqueEmails(known.users)
    requires exists u :: u in known.users && u.email == email && !verify(password, u.password)
    requires forall u :: u in unknown.users ==> u.email != email
    ensures Login(known, email, password, verify) == Login(unknown, email, password, verify)
  {
    var u :| u in known.users && u.email == email && !verify(password, u.password);
    var found := Users.FindByEmail(known.users, email);
    var i :| 0 <= i < |known.users| && known.users[i] == u;
    var j :| 0 <= j < |known.users| && known.users[j] == found.value;
    assert i == j;
  }

  /** `refresh_token`: a payload with a non-empty "sub" buys an access token
      for the same subject. When decoding raises the library's expired or
      invalid token error, the refusal carries the refresh messages; the
      service's own decoder never lets those errors out (see
      `RefreshSeesDecoderMessages`). */
  function RefreshToken(outcome: DecodeOutcome): (r: Result<Token>)
    ensures r.Ok? <==> outcome.Decoded? && outcome.payload.sub.Some? && outcome.payload.sub.value != ""
    ensures r.Ok? ==> r.value == AccessToken(map["sub" := outcome.payload.sub.value])
    ensures outcome.Decoded? && !r.Ok? ==> r == Err(UNAUTHORIZED, INVALID_REFRESH_TOKEN)
    ensures outcome.ExpiredSignature? ==> r == Err(UNAUTHORIZED, REFRESH_TOKEN_EXPIRED)
    ensures outcome.InvalidToken? ==> r == Err(UNAUTHORIZED, INVALID_REFRESH_TOKEN)
    ensures outcome.HttpFailure? ==> r == Err(outcome.status, outcome.detail)
    ensures outcome.OtherFailure? ==> r.Err? && r.status == INTERNAL_ERROR
  {
    match outcome
    case Decoded(payload) =>
      if payload.sub.None? || payload.sub.value == "" then Err(UNAUTHORIZED, INVALID_REFRESH_TOKEN)
      else Ok(AccessToken(map["sub" := payload.sub.value]))
    case ExpiredSignature => Err(UNAUTHORIZED, REFRESH_TOKEN_EXPIRED)
    case InvalidToken => Err(UNAUTHORIZED, INVALID_REFRESH_TOKEN)
    case HttpFailure(s, d) => Err(s, d)
    case OtherFailure(m) => Err(INTERNAL_ERROR, m)
  }

  /** Logging in and refreshing a token minted for the same subject agree. */
  lemma RefreshKeepsSubject(db: Users.Store, email: string, password: string, verify: (string, string) -> bool)
    requires Login(db, email, password, verify).Ok?
    requires email != ""
    ensures RefreshToken(Decoded(Payload(Some(email)))) == Login(db, email, password, verify)
  {
  }

  /** `get_current_user`: the user whose email is the token's subject. An
      HTTP error from decoding passes through unchanged; every other failure
      becomes the 401 credentials error. */
  function GetCurrentUser(outcome: DecodeOutcome, db: Users.Store): (r: Result<Users.User>)
    ensures r.Ok? ==> outcome.Decoded? && outcome.payload.sub.Some?
    ensures r.Ok? ==> r.value in db.users && r.value.email == outcome.payload.sub.value
    ensures (outcome.Decoded? && outcome.payload.sub.Some?
              && exists u :: u in db.users && u.email == outcome.payload.sub.value) ==> r.Ok?
    ensures outcome.HttpFailure? ==> r == Err(outcome.status, outcome.detail)
    ensures r.Err? && !outcome.HttpFailure? ==> r == Err(UNAUTHORIZED, COULD_NOT_VALIDATE)
  {
    match outcome
    case Decoded(payload) =>
      if payload.sub.None? then Err(UNAUTHORIZED, COULD_NOT_VALIDATE)
      else
        (match Users.FindByEmail(db.users, payload.sub.value)
         case None => Err(UNAUTHORIZED, COULD_NOT_VALIDATE)
         case Some(user) => Ok(user))
    case HttpFailure(s, d) => Err(s, d)
    case _ => Err(UNAUTHORIZED, COULD_NOT_VALIDATE)
  }

  /** `admin_required`: passes the very same user through when its role is
      the administrator value, refuses everyone else. The value of
      `RoleEnum.ADMIN` is a parameter, since the enum's definition is not part
      of this model. */
  function AdminRequired(user: Users.User, adminRole: string): (r: Result<Users.User>)
    ensures r.Ok? <==> user.role == adminRole
    ensures r.Ok? ==> r.value == user
    ensures r.Err? ==> r == Err(FORBIDDEN, ADMINS_ONLY)
  {
    if user.role != adminRole then Err(FORBIDDEN, ADMINS_ONLY) else Ok(user)
  }

  /** The dependency chain of an admin-only route: authenticate, then check the role. */
  function AdminGate(outcome: DecodeOutcome, db: Users.Store, adminRole: string): Result<Users.User> {
    match GetCurrentUser(outcome, db)
    case Err(s, d) => Err(s, d)
    case Ok(user) => AdminRequired(user, adminRole)
  }

  /** Whoever passes the admin gate is a stored user with the admin role, and
      is the subject of the token. */
  lemma AdminGateSound(outcome: DecodeOutcome, db: Users.Store, adminRole: string)
    requires AdminGate(outcome, db, adminRole).Ok?
    ensures var u := AdminGate(outcome, db, adminRole).value;
      && u in db.users
      && u.role == adminRole
      && outcome.Decoded? && outcome.payload.sub == Some(u.email)
  {
  }

  // ---------------------------------------------------------------------------
  // The token decoder of the JWT service as written, and what it does to its callers.

  const INVALID_TOKEN_SUB := "Invalid token: 'sub' claim missing"
  const TOKEN_EXPIRED := "Token has expired"
  const INVALID_TOKEN := "Invalid token"
  const UNEXPECTED_ERROR := "Unexpected error decoding token"

  /** Message of the `AttributeError` raised by calling `.get` on a string. */
  const STR_HAS_NO_GET := "'str' object has no attribute 'get'"

  /** What the underlying `jwt.decode` call produced. */
  datatype JwtDecode = Claims(sub: Option<string>) | JwtExpired | JwtInvalid | JwtOther(message: string)

  /** `decode_token` as written: it returns the "sub" claim itself, a string,
      and turns every failure into an `HTTPException`. The 401 it raises for a
      missing "sub" is caught by its own `except Exception` and re-raised as a
      500. */
  function DecodeTokenAsWritten(raw: JwtDecode): (r: Result<string>)
    ensures r.Ok? <==> raw.Claims? && raw.sub.Some?
    ensures r.Ok? ==> r.value == raw.sub.value
    ensures raw.JwtExpired? ==> r == Err(UNAUTHORIZED, TOKEN_EXPIRED)
    ensures raw.JwtInvalid? ==> r == Err(UNAUTHORIZED, INVALID_TOKEN)
    ensures (raw.Claims? && raw.sub.None?) || raw.JwtOther? ==> r.Err? && r.status == INTERNAL_ERROR
  {
    match raw
    case Claims(sub) =>
      if sub.None? then Err(INTERNAL_ERROR, UNEXPECTED_ERROR + ": 401: " + INVALID_TOKEN_SUB)
      else Ok(sub.value)
    case JwtExpired => Err(UNAUTHORIZED, TOKEN_EXPIRED)
    case JwtInvalid => Err(UNAUTHORIZED, INVALID_TOKEN)
    case JwtOther(m) => Err(INTERNAL_ERROR, UNEXPECTED_ERROR + ": " + m)
  }

  /** `get_current_user` over the decoder as written: the decoded string has no
      `.get`, the `AttributeError` is caught by `except Exception`, and the
      credentials error is raised. */
  function GetCurrentUserAsWritten(raw: JwtDecode, db: Users.Store): (r: Result<Users.User>)
    ensures r.Err?
    ensures raw.Claims? && raw.sub.Some? ==> r == Err(UNAUTHORIZED, COULD_NOT_VALIDATE)
  {
    match DecodeTokenAsWritten(raw)
    case Ok(_) => Err(UNAUTHORIZED, COULD_NOT_VALIDATE)
    case Err(s, d) => Err(s, d)
  }

  /** `refresh_token` over the decoder as written: the `AttributeError` from `.get`
      escapes both `except` clauses (500), and an expired token surfaces as
      the decoder's own 401 rather than the refresh message. */
  function RefreshTokenAsWritten(raw: JwtDecode): (r: Result<Token>)
    ensures r.Err?
    ensures raw.Claims? && raw.sub.Some? ==> r == Err(INTERNAL_ERROR, STR_HAS_NO_GET)
    ensures raw.JwtExpired? ==> r == Err(UNAUTHORIZED, TOKEN_EXPIRED)
  {
    match DecodeTokenAsWritten(raw)
    case Ok(_) => Err(INTERNAL_ERROR, STR_HAS_NO_GET)
    case Err(s, d) => Err(s, d)
  }

  /** The decoder with its evident intent restored: it returns the payload,
      a missing "sub" is the 401 it raises, and the other failures are the
      `HTTPException`s it already raises. */
  function FixedDecodeToken(raw: JwtDecode): (r: DecodeOutcome)
    ensures raw.Claims? && raw.sub.Some? ==> r == Decoded(Payload(raw.sub))
    ensures raw.Claims? && raw.sub.None? ==> r == HttpFailure(UNAUTHORIZED, INVALID_TOKEN_SUB)
    ensures !raw.Claims? ==> r == HttpFailure(DecodeTokenAsWritten(raw).status, DecodeTokenAsWritten(raw).detail)
  {
    match raw
    case Claims(sub) =>
      if sub.None? then HttpFailure(UNAUTHORIZED, INVALID_TOKEN_SUB) else Decoded(Payload(sub))
    case JwtExpired => HttpFailure(UNAUTHORIZED, TOKEN_EXPIRED)
    case JwtInvalid => HttpFailure(UNAUTHORIZED, INVALID_TOKEN)
    case JwtOther(m) => HttpFailure(INTERNAL_ERROR, UNEXPECTED_ERROR + ": " + m)
  }

  /** The service's decoder turns expired and invalid tokens into its own
      401s before `refresh_token` can catch them, so the refresh-specific
      messages are never given: an expired refresh token gets "Token has
      expired" and an invalid one "Invalid token". */
  lemma RefreshSeesDecoderMessages(raw: JwtDecode)
    ensures !FixedDecodeToken(raw).ExpiredSignature? && !FixedDecodeToken(raw).InvalidToken?
    ensures RefreshToken(FixedDecodeToken(JwtExpired)) == Err(UNAUTHORIZED, TOKEN_EXPIRED)
    ensures RefreshToken(FixedDecodeToken(JwtInvalid)) == Err(UNAUTHORIZED, INVALID_TOKEN)
    ensures RefreshTokenAsWritten(JwtExpired) == Err(UNAUTHORIZED, TOKEN_EXPIRED)
    ensures RefreshTokenAsWritten(JwtInvalid) == Err(UNAUTHORIZED, INVALID_TOKEN)
  {
  }

  /** The catch-all of the decoder as written turns its own 401 for a token without
      "sub" into a 500; the fixed decoder answers 401. */
  lemma MissingSubBecomesServerError()
    ensures DecodeTokenAsWritten(Claims(None)).status == INTERNAL_ERROR
    ensures GetCurrentUserAsWritten(Claims(None), Users.Store([], 1)).status == INTERNAL_ERROR
    ensures GetCurrentUser(FixedDecodeToken(Claims(None)), Users.Store([], 1)) == Err(UNAUTHORIZED, INVALID_TOKEN_SUB)
  {
  }

  /** A registered user's valid token is rejected by the decoder as written but
      authenticates that user once the decoder returns the payload. */
  lemma ValidTokenRejectedAsWritten(db: Users.Store, u: Users.User)
    requires Users.UniqueEmails(db.users)
    requires u in db.users
    ensures GetCurrentUserAsWritten(Claims(Some(u.email)), db) == Err(UNAUTHORIZED, COULD_NOT_VALIDATE)
    ensures GetCurrentUser(FixedDecodeToken(Claims(Some(u.email))), db) == Ok(u)
  {
    var found := Users.FindByEmail(db.users, u.email);
    var i :| 0 <= i < |db.users| && db.users[i] == u;
    var j :| 0 <= j < |db.users| && db.users[j] == found.value;
    assert i == j;
  }

  /** A valid refresh token is answered with 500 by the decoder as written, and
      with a new access token for the same subject once the decoder is fixed. */
  lemma RefreshBrokenAsWritten(sub: string)
    requires sub != ""
    ensures RefreshTokenAsWritten(Claims(Some(sub))) == Err(INTERNAL_ERROR, STR_HAS_NO_GET)
    ensures RefreshToken(FixedDecodeToken(Claims(Some(sub)))) == Ok(AccessToken(map["sub" := sub]))
  {
  }

  /** Expired, invalid and undecodable tokens meet the same answer with either
      decoder: the decoder's own HTTP error, unchanged. */
  lemma FixedDecoderErrorsPassThrough(raw: JwtDecode, db: Users.Store)
    requires !raw.Claims?
    ensures GetCurrentUser(FixedDecodeToken(raw), db) == GetCurrentUserAsWritten(raw, db)
  {
  }
}

=== FILE: files.dfy ===
/** Upload storage naming: the service's upload root, the per-product folder
    built from sanitised category and product names, the name each saved
    image gets, and best-effort deletion.

    Paths are strings joined with "/"; path normalisation is not modelled.
    The random unique name of each saved file is the parameter `freshName(k)`
    for the `k`-th image of a request. The disk is the set of regular files
    and the set of other existing entries.
 */
module Files {

  import opened Outcomes
  import opened Text

  const UPLOAD_PATH_NOT_SET := "UPLOAD_PATH environment variable is not set"

  datatype FileService = FileService(uploadDir: string)

  /** The constructor: `UPLOAD_PATH` must be set and non-empty, otherwise a
      `ValueError` is raised. */
  function NewFileService(uploadPath: Option<string>): (r: Result<FileService>)
    ensures r.Ok? <==> uploadPath.Some? && uploadPath.value != ""
    ensures r.Ok? ==> r.value.uploadDir == uploadPath.value
    ensures r.Err? ==> r == Err(INTERNAL_ERROR, UPLOAD_PATH_NOT_SET)
  {
    if uploadPath.None? || uploadPath.value == "" then Err(INTERNAL_ERROR, UPLOAD_PATH_NOT_SET)
    else Ok(FileService(uploadPath.value))
  }

  /** `dir / name`. */
  function Join(dir: string, name: string): string {
    dir + "/" + name
  }

  /** The name is recovered from a joined path by dropping the directory and
      the separator. */
  lemma JoinTail(dir: string, name: string)
    ensures Join(dir, name)[|dir| + 1..] == name
  {
  }

  /** One folder segment: `name.lower().replace(" ", "_")`. */
  function Sanitize(s: string): string {
    ReplaceChar(Lower(s), ' ', '_')
  }

  /** Sanitising works character by character: spaces become underscores and
      ASCII capitals become small letters; nothing else changes. */
  lemma SanitizeCharwise(s: string)
    ensures |Sanitize(s)| == |s|
    ensures forall i :: 0 <= i < |s| ==> Sanitize(s)[i] == (if s[i] == ' ' then '_' else LowerChar(s[i]))
  {
  }

  /** A sanitised segment has no space and no ASCII capital. */
  lemma SanitizeClean(s: string)
    ensures ' ' !in Sanitize(s)
    ensures forall i :: 0 <= i < |Sanitize(s)| ==> !IsUpperAscii(Sanitize(s)[i])
  {
    SanitizeCharwise(s);
  }

  lemma SanitizeIdempotent(s: string)
    ensures Sanitize(Sanitize(s)) == Sanitize(s)
  {
    SanitizeCharwise(s);
    SanitizeCharwise(Sanitize(s));
    SanitizeClean(s);
  }

  /** pathlib's `/` on string paths: an empty segment adds nothing, a segment
      starting with "/" is absolute and replaces everything before it, and
      an empty base contributes nothing. */
  function PathJoin(base: string, seg: string): string {
    if seg == "" then base
    else if seg[0] == '/' || base == "" then seg
    else Join(base, seg)
  }

  /** Sanitising keeps a name empty or non-empty and keeps a leading "/". */
  lemma SanitizeKeepsHead(s: string)
    ensures Sanitize(s) == "" <==> s == ""
    ensures s != "" ==> (Sanitize(s)[0] == '/' <==> s[0] == '/')
  {
    SanitizeCharwise(s);
  }

  /** `build_product_folder` as written: the sanitised names are joined onto
      the root with pathlib's `/`, and sanitising leaves "/" alone. A
      product name starting with "/" discards the root and the category; a
      category starting with "/" discards the root. */
  function BuildProductFolderAsWritten(fs: FileService, category: string, productName: string): (r: string)
    ensures productName != "" && productName[0] == '/' ==> r == Sanitize(productName)
    ensures (category != "" && category[0] == '/' && productName != "" && productName[0] != '/')
              ==> r == Sanitize(category) + "/" + Sanitize(productName)
    ensures (fs.uploadDir != "" && category != "" && category[0] != '/' && productName != "" && productName[0] != '/')
              ==> r == fs.uploadDir + "/" + Sanitize(category) + "/" + Sanitize(productName)
  {
    SanitizeKeepsHead(category);
    SanitizeKeepsHead(productName);
    PathJoin(PathJoin(fs.uploadDir, Sanitize(category)), Sanitize(productName))
  }

  /** A category starting with "/" takes the product folder out of the
      upload root: with root "/up", category "/t" and product "x" the folder
      is "/t/x". */
  lemma FolderEscapesRootExample()
    ensures BuildProductFolderAsWritten(FileService("/up"), "/t", "x") == "/t/x"
    ensures !("/up/" <= BuildProductFolderAsWritten(FileService("/up"), "/t", "x"))
  {
    SanitizeCharwise("/t");
    SanitizeCharwise("x");
    assert Sanitize("/t") == "/t";
    assert Sanitize("x") == "x";
    assert "/t/x"[1] != "/up/"[1];
  }

  /** The two names a path resolves specially: the level itself and its parent. */
  predicate DotName(s: string) {
    s == "." || s == ".."
  }

  /** One folder segment with its evident intent restored: sanitised as
      written, "/" also becomes "_" so that a name cannot leave its level,
      and the dots of "." and ".." become "_" so that it cannot name the
      level itself or its parent. */
  function SafeSegment(s: string): string {
    var t := ReplaceChar(Sanitize(s), '/', '_');
    if DotName(t) then ReplaceChar(t, '.', '_') else t
  }

  /** A safe segment is the name character by character: a space or "/"
      becomes "_", every character of "." or ".." becomes "_", and an ASCII
      capital becomes its small letter. It never holds "/" or a space and is
      never "." or "..". */
  lemma SafeSegmentCharwise(s: string)
    ensures |SafeSegment(s)| == |s|
    ensures forall i :: 0 <= i < |s| ==>
              SafeSegment(s)[i] == (if s[i] == ' ' || s[i] == '/' || DotName(s) then '_' else LowerChar(s[i]))
    ensures '/' !in SafeSegment(s) && ' ' !in SafeSegment(s)
    ensures !DotName(SafeSegment(s))
  {
    SanitizeCharwise(s);
    var t := ReplaceChar(Sanitize(s), '/', '_');
    assert forall i :: 0 <= i < |s| ==> t[i] == (if s[i] == ' ' || s[i] == '/' then '_' else LowerChar(s[i]));
    assert forall i :: 0 <= i < |s| && t[i] == '.' ==> s[i] == '.';
    if DotName(t) {
      assert DotName(s);
      var u := ReplaceChar(t, '.', '_');
      assert u[0] == '_';
    }
  }

  /** `build_product_folder`, corrected: the folder always lies under the
      upload root, one level per non-empty name (pathlib drops an empty one),
      and the levels are the safe segments of the category, then of the
      product name. */
  function BuildProductFolder(fs: FileService, category: string, productName: string): (r: string)
    ensures fs.uploadDir != "" ==> r == fs.uploadDir || (|r| > |fs.uploadDir| && r[..|fs.uploadDir| + 1] == fs.uploadDir + "/")
    ensures (fs.uploadDir != "" && category != "" && productName != "")
              ==> r == fs.uploadDir + "/" + SafeSegment(category) + "/" + SafeSegment(productName)
    ensures fs.uploadDir != "" && category == "" && productName != "" ==> r == fs.uploadDir + "/" + SafeSegment(productName)
    ensures fs.uploadDir != "" && category != "" && productName == "" ==> r == fs.uploadDir + "/" + SafeSegment(category)
    ensures category == "" && productName == "" ==> r == fs.uploadDir
  {
    SafeSegmentCharwise(category);
    SafeSegmentCharwise(productName);
    var c := SafeSegment(category);
    var n := SafeSegment(productName);
    assert c != "" ==> c[0] != '/' by { if c != "" { assert c[0] in c; } }
    assert n != "" ==> n[0] != '/' by { if n != "" { assert n[0] in n; } }
    PathJoin(PathJoin(fs.uploadDir, c), n)
  }

  /** Corrected and as written agree on every name that holds no "/" and is
      neither "." nor "..". */
  lemma BuildProductFolderAgrees(fs: FileService, category: string, productName: string)
    requires '/' !in category && '/' !in productName
    requires !DotName(category) && !DotName(productName)
    ensures BuildProductFolder(fs, category, productName) == BuildProductFolderAsWritten(fs, category, productName)
  {
    SafeSegmentCharwise(category);
    SafeSegmentCharwise(productName);
    SanitizeCharwise(category);
    SanitizeCharwise(productName);
    assert SafeSegment(category) == Sanitize(category);
    assert SafeSegment(productName) == Sanitize(productName);
  }

  /** The position of the last `c` in `s`. */
  function LastIndexOf(s: string, c: char): (r: Option<nat>)
    ensures r.Some? ==> r.value < |s| && s[r.value] == c && forall j :: r.value < j < |s| ==> s[j] != c
    ensures r.None? ==> c !in s
  {
    if s == [] then None
    else if s[|s| - 1] == c then Some(|s| - 1)
    else LastIndexOf(s[..|s| - 1], c)
  }

  /** The final component of a path. */
  function BaseName(path: string): (r: string)
    ensures '/' !in r
    ensures |r| <= |path| && r == path[|path| - |r|..]
  {
    match LastIndexOf(path, '/')
    case None => path
    case Some(i) => path[i + 1..]
  }

  /** `Path(filename).suffix`: from the last dot of the final component, unless
      that dot starts or ends the component. */
  function Suffix(filename: string): (r: string)
    ensures r == [] || (|r| >= 2 && r[0] == '.' && '.' !in r[1..] && '/' !in r)
  {
    var name := BaseName(filename);
    match LastIndexOf(name, '.')
    case None => []
    case Some(i) =>
      if 0 < i < |name| - 1 then
        assert name[i..][1..] == name[i + 1..];
        name[i..]
      else []
  }

  /** A tail of a tail is a tail. */
  lemma TailOfTail(s: string, a: nat, i: nat)
    requires a + i <= |s|
    ensures s[a..][i..] == s[a + i..]
  {
  }

  /** The suffix is a tail of the file name. */
  lemma SuffixIsTail(filename: string)
    ensures |Suffix(filename)| <= |filename|
    ensures Suffix(filename) == filename[|filename| - |Suffix(filename)|..]
  {
    var name := BaseName(filename);
    var a := |filename| - |name|;
    assert name == filename[a..];
    match LastIndexOf(name, '.')
    case None =>
    case Some(i) =>
      if 0 < i < |name| - 1 {
        assert Suffix(filename) == name[i..];
        TailOfTail(filename, a, i);
      }
  }

  /** A name without a separator is its own final component. */
  lemma BaseNameOfPlainName(s: string)
    requires '/' !in s
    ensures BaseName(s) == s
  {
  }

  /** In a name without a separator, the suffix starts at the last dot, when
      that dot is neither the first nor the last character. */
  lemma SuffixAtLastDot(s: string, i: nat)
    requires '/' !in s
    requires 0 < i < |s| - 1 && s[i] == '.'
    requires forall j :: i < j < |s| ==> s[j] != '.'
    ensures Suffix(s) == s[i..]
  {
    BaseNameOfPlainName(s);
    var r := LastIndexOf(s, '.');
    assert s[i] in s;
    assert r.Some? && r.value == i;
  }

  /** A name whose only dot leads it (a hidden file) has no suffix. */
  lemma NoSuffixForLeadingDot(s: string)
    requires '/' !in s
    requires |s| > 0 && s[0] == '.'
    requires forall j :: 0 < j < |s| ==> s[j] != '.'
    ensures Suffix(s) == ""
  {
    BaseNameOfPlainName(s);
    var r := LastIndexOf(s, '.');
    assert s[0] in s;
    assert r.Some? && r.value == 0;
  }

  lemma SuffixExample()
    ensures Suffix("archive.tar.gz") == ".gz"
  {
    SuffixAtLastDot("archive.tar.gz", 11);
  }

  lemma NoSuffixExample()
    ensures Suffix(".bashrc") == ""
  {
    NoSuffixForLeadingDot(".bashrc");
  }

  /** `_save_file`: the destination is the folder joined with a fresh unique
      name followed by the upload's suffix. The unique name starts with a
      uuid, never empty and never starting with "/", so pathlib's `/` is
      plain joining here. */
  function SaveFile(folder: string, filename: string, unique: string): (r: string)
    ensures |r| == |folder| + 1 + |unique| + |Suffix(filename)|
    ensures r[..|folder| + 1] == folder + "/"
    ensures r[|folder| + 1..] == unique + Suffix(filename)
  {
    Join(folder, unique + Suffix(filename))
  }

  /** `[f(k, s[0]), f(k + 1, s[1]), ...]`: the per-item loop of a request,
      where item `j` of `s` is item `k + j` of the request. */
  function MapIndexed<A, B>(s: seq<A>, f: (nat, A) -> B, k: nat): (r: seq<B>)
    ensures |r| == |s|
    ensures forall j :: 0 <= j < |r| ==> r[j] == f(k + j, s[j])
  {
    if s == [] then [] else [f(k, s[0])] + MapIndexed(s[1..], f, k + 1)
  }

  /** Saving a request's images into `folder`: one path per image, in upload
      order, each inside the folder and ending with that image's suffix. */
  function SaveInto(folder: string, filenames: seq<string>, freshName: nat -> string): (r: seq<string>)
    ensures |r| == |filenames|
    ensures forall k :: 0 <= k < |r| ==>
              && |r[k]| > |folder|
              && r[k][..|folder| + 1] == folder + "/"
              && r[k][|folder| + 1..] == freshName(k) + Suffix(filenames[k])
    ensures forall k :: 0 <= k < |r| ==> r[k] == Join(folder, freshName(k) + Suffix(filenames[k]))
  {
    var r := MapIndexed(filenames, (k: nat, filename: string) => SaveFile(folder, filename, freshName(k)), 0);
    forall k | 0 <= k < |r|
      ensures |r[k]| > |folder|
      ensures r[k][..|folder| + 1] == folder + "/"
      ensures r[k][|folder| + 1..] == freshName(k) + Suffix(filenames[k])
      ensures r[k] == Join(folder, freshName(k) + Suffix(filenames[k]))
    {
      assert r[k] == SaveFile(folder, filenames[k], freshName(k));
    }
    r
  }

  /** `save_images` as written: the request's images saved, in upload order,
      into the folder `build_product_folder` builds as written. */
  function SaveImagesAsWritten(fs: FileService, filenames: seq<string>, category: string, productName: string,
                               freshName: nat -> string): (r: seq<string>)
    ensures |r| == |filenames|
    ensures forall k :: 0 <= k < |r| ==>
              r[k] == Join(BuildProductFolderAsWritten(fs, category, productName), freshName(k) + Suffix(filenames[k]))
  {
    var folder := BuildProductFolderAsWritten(fs, category, productName);
    SaveInto(folder, filenames, freshName)
  }

  /** `save_images`, corrected: the same, into the corrected product folder. */
  function SaveImages(fs: FileService, filenames: seq<string>, category: string, productName: string,
                      freshName: nat -> string): (r: seq<string>)
    ensures |r| == |filenames|
    ensures forall k :: 0 <= k < |r| ==>
              r[k] == Join(BuildProductFolder(fs, category, productName), freshName(k) + Suffix(filenames[k]))
  {
    var folder := BuildProductFolder(fs, category, productName);
    SaveInto(folder, filenames, freshName)
  }

  /** Corrected and as written save to the same paths whenever both names
      hold no "/" and neither is "." or "..". */
  lemma SaveImagesAgrees(fs: FileService, filenames: seq<string>, category: string, productName: string,
                         freshName: nat -> string)
    requires '/' !in category && '/' !in productName
    requires !DotName(category) && !DotName(productName)
    ensures SaveImages(fs, filenames, category, productName, freshName)
            == SaveImagesAsWritten(fs, filenames, category, productName, freshName)
  {
    BuildProductFolderAgrees(fs, category, productName);
  }

  /** Fresh names of one fixed length that never repeat (a uuid4 in its
      hyphenated form is 36 characters) give every saved image its own path, whatever the
      uploads were called. */
  lemma SavedPathsDistinct(fs: FileService, filenames: seq<string>, category: string, productName: string,
                           freshName: nat -> string, n: nat)
    requires forall k: nat :: |freshName(k)| == n
    requires forall i: nat, j: nat :: i != j ==> freshName(i) != freshName(j)
    ensures var r := SaveImages(fs, filenames, category, productName, freshName);
      forall i, j :: 0 <= i < j < |r| ==> r[i] != r[j]
  {
    var folder := BuildProductFolder(fs, category, productName);
    var r := SaveImages(fs, filenames, category, productName, freshName);
    forall i, j | 0 <= i < j < |r|
      ensures r[i] != r[j]
    {
      var ti := freshName(i) + Suffix(filenames[i]);
      var tj := freshName(j) + Suffix(filenames[j]);
      assert ti[..n] == freshName(i) != freshName(j) == tj[..n];
      JoinTail(folder, ti);
      JoinTail(folder, tj);
      assert r[i] == Join(folder, ti) && r[j] == Join(folder, tj);
    }
  }

  /** The regular files on disk, and the other entries (folders) that exist. */
  datatype Disk = Disk(files: set<string>, others: set<string>)

  /** The disk after a deletion pass, and the paths whose unlink failed (and
      were only logged). */
  datatype Deletion = Deletion(disk: Disk, failed: seq<string>)

  /** `delete_files`: removes each path that is a regular file, in order;
      a failing unlink (`fails`) is logged and skipped, never raised. */
  function DeleteFiles(disk: Disk, paths: seq<string>, fails: string -> bool): (r: Deletion)
    decreases |paths|
    ensures r.disk.others == disk.others
    ensures forall p :: p in r.disk.files <==> p in disk.files && (p !in paths || fails(p))
    ensures forall p :: p in r.failed ==> p in paths && p in disk.files && fails(p)
    ensures forall p :: p in paths && p in disk.files && fails(p) ==> p in r.failed
  {
    if paths == [] then Deletion(disk, [])
    else
      var p := paths[0];
      if p in disk.files && fails(p) then
        var rest := DeleteFiles(disk, paths[1..], fails);
        Deletion(rest.disk, [p] + rest.failed)
      else if p in disk.files then
        DeleteFiles(Disk(disk.files - {p}, disk.others), paths[1..], fails)
      else
        DeleteFiles(disk, paths[1..], fails)
  }

  /** A second pass over the same paths, with the same unlink failures,
      removes nothing more. */
  lemma DeleteFilesIdempotent(disk: Disk, paths: seq<string>, fails: string -> bool)
    ensures var once := DeleteFiles(disk, paths, fails).disk;
      DeleteFiles(once, paths, fails).disk == once
  {
    var once := DeleteFiles(disk, paths, fails).disk;
    var twice := DeleteFiles(once, paths, fails).disk;
    assert twice.files == once.files;
  }
}

=== FILE: orders.dfy ===
/** Orders: the status and payment enums, validation of the order request
    schemas, and the order service (creation with price capture and totals,
    scoped and filtered listing, lookup by id).

    Amounts are exact integers (cents), matching the `Numeric(10, 2)` columns;
    timestamps are integers. The stock check-and-decrement of the product
    service is an oracle `reserve(n, productId, quantity)`: `n` counts the
    calls already made for the same request, so its answers may depend on the
    reservations before it.
 */
module Orders {

  import opened Outcomes
  import opened Text
  import Query
  import Users
  import Products

  const ORDER_NOT_FOUND := "Order not found."

  /** The role literal the order service compares with (upper case). */
  const ADMIN := "ADMIN"

  /** Detail of the 422 answer to a request body that fails schema validation. */
  const INVALID_BODY := "Request body failed validation."

  // ---------------------------------------------------------------------------
  // Enums: each member and the string value it is sent and stored as.

  datatype OrderStatus = Pending | Processing | Completed | Canceled

  function StatusValue(s: OrderStatus): string {
    match s
    case Pending => "pending"
    case Processing => "processing"
    case Completed => "completed"
    case Canceled => "canceled"
  }

  function ParseStatus(v: string): (r: Option<OrderStatus>)
    ensures r.Some? <==> v in {"pending", "processing", "completed", "canceled"}
    ensures r.Some? ==> StatusValue(r.value) == v
  {
    if v == "pending" then Some(Pending)
    else if v == "processing" then Some(Processing)
    else if v == "completed" then Some(Completed)
    else if v == "canceled" then Some(Canceled)
    else None
  }

  lemma StatusRoundTrip(s: OrderStatus)
    ensures ParseStatus(StatusValue(s)) == Some(s)
  {
  }

  datatype PaymentMethod = Pix | BankSlip | DebitCard | CreditCard | BankTransfer

  function MethodValue(m: PaymentMethod): string {
    match m
    case Pix => "pix"
    case BankSlip => "bank_slip"
    case DebitCard => "debit_card"
    case CreditCard => "credit_card"
    case BankTransfer => "bank_transfer"
  }

  function ParseMethod(v: string): (r: Option<PaymentMethod>)
    ensures r.Some? <==> v in {"pix", "bank_slip", "debit_card", "credit_card", "bank_transfer"}
    ensures r.Some? ==> MethodValue(r.value) == v
  {
    if v == "pix" then Some(Pix)
    else if v == "bank_slip" then Some(BankSlip)
    else if v == "debit_card" then Some(DebitCard)
    else if v == "credit_card" then Some(CreditCard)
    else if v == "bank_transfer" then Some(BankTransfer)
    else None
  }

  lemma MethodRoundTrip(m: PaymentMethod)
    ensures ParseMethod(MethodValue(m)) == Some(m)
  {
  }

  datatype PaymentStatus = PaymentPending | Paid | Failed | PaymentCanceled | Refunded

  function PaymentStatusValue(s: PaymentStatus): string {
    match s
    case PaymentPending => "pending"
    case Paid => "paid"
    case Failed => "failed"
    case PaymentCanceled => "canceled"
    case Refunded => "refunded"
  }

  function ParsePaymentStatus(v: string): (r: Option<PaymentStatus>)
    ensures r.Some? <==> v in {"pending", "paid", "failed", "canceled", "refunded"}
    ensures r.Some? ==> PaymentStatusValue(r.value) == v
  {
    if v == "pending" then Some(PaymentPending)
    else if v == "paid" then Some(Paid)
    else if v == "failed" then Some(Failed)
    else if v == "canceled" then Some(PaymentCanceled)
    else if v == "refunded" then Some(Refunded)
    else None
  }

  lemma PaymentStatusRoundTrip(s: PaymentStatus)
    ensures ParsePaymentStatus(PaymentStatusValue(s)) == Some(s)
  {
  }

  // ---------------------------------------------------------------------------
  // Request schemas. An `...Input` is the body as sent (every field may be
  // missing, enums as strings); parsing yields the validated record or 422.

  datatype OrderItemInput = OrderItemInput(productId: Option<int>, quantity: Option<int>, priceAtMoment: Option<int>)

  datatype OrderItemCreate = OrderItemCreate(productId: int, quantity: int, priceAtMoment: Option<int>)

  /** `OrderItemCreate`: `product_id` and a positive `quantity` are required;
      `price_at_moment` is optional and absent by default. */
  function ParseOrderItem(raw: OrderItemInput): (r: Result<OrderItemCreate>)
    ensures r.Ok? <==> raw.productId.Some? && raw.quantity.Some? && raw.quantity.value > 0
    ensures r.Ok? ==> r.value.productId == raw.productId.value && r.value.quantity == raw.quantity.value
    ensures r.Ok? ==> r.value.priceAtMoment == raw.priceAtMoment
    ensures r.Err? ==> r.status == UNPROCESSABLE
  {
    if raw.productId.Some? && raw.quantity.Some? && raw.quantity.value > 0 then
      Ok(OrderItemCreate(raw.productId.value, raw.quantity.value, raw.priceAtMoment))
    else
      Err(UNPROCESSABLE, INVALID_BODY)
  }

  /** Validates every item of the list, keeping their order. */
  function ParseOrderItems(raw: seq<OrderItemInput>): (r: Result<seq<OrderItemCreate>>)
    ensures r.Ok? <==> forall k :: 0 <= k < |raw| ==> ParseOrderItem(raw[k]).Ok?
    ensures r.Ok? ==> |r.value| == |raw| && forall k :: 0 <= k < |raw| ==> r.value[k] == ParseOrderItem(raw[k]).value
    ensures r.Err? ==> r.status == UNPROCESSABLE
  {
    if raw == [] then Ok([])
    else
      match ParseOrderItem(raw[0])
      case Err(s, d) => Err(s, d)
      case Ok(first) =>
        match ParseOrderItems(raw[1..])
        case Err(s, d) => Err(s, d)
        case Ok(rest) => Ok([first] + rest)
  }

  /** A `created_at` value as sent: a datetime the schema can read (as a
      timestamp), or text it cannot. */
  datatype DateTimeInput = DateTime(t: int) | Malformed(text: string)

  /** An optional `created_at` must be a readable datetime when present. */
  predicate ValidDateTime(v: Option<DateTimeInput>) {
    v.None? || v.value.DateTime?
  }

  function ParseDateTime(v: Option<DateTimeInput>): Option<int>
    requires ValidDateTime(v)
  {
    if v.None? then None else Some(v.value.t)
  }

  datatype OrderCreateInput = OrderCreateInput(
    clientId: Option<int>,
    status: Option<string>,
    paymentMethod: Option<string>,
    paymentStatus: Option<string>,
    totalAmount: Option<int>,
    createdAt: Option<DateTimeInput>,
    orderItems: Option<seq<OrderItemInput>>)

  datatype OrderCreate = OrderCreate(
    clientId: int,
    status: OrderStatus,
    paymentMethod: PaymentMethod,
    paymentStatus: PaymentStatus,
    totalAmount: Option<int>,
    createdAt: Option<int>,
    orderItems: seq<OrderItemCreate>)

  predicate ValidEnum<E>(v: Option<string>, parse: string -> Option<E>) {
    v.Some? && parse(v.value).Some?
  }

  /** `OrderCreate`: client, status, payment method, payment status and the
      item list are required; `total_amount` and the inherited `created_at`
      are optional, and a present `created_at` must be a datetime. */
  function ParseOrderCreate(raw: OrderCreateInput): (r: Result<OrderCreate>)
    ensures r.Ok? <==>
              && raw.clientId.Some?
              && ValidEnum(raw.status, ParseStatus)
              && ValidEnum(raw.paymentMethod, ParseMethod)
              && ValidEnum(raw.paymentStatus, ParsePaymentStatus)
              && ValidDateTime(raw.createdAt)
              && raw.orderItems.Some?
              && forall k :: 0 <= k < |raw.orderItems.value| ==> ParseOrderItem(raw.orderItems.value[k]).Ok?
    ensures r.Ok? ==>
              && r.value.clientId == raw.clientId.value
              && StatusValue(r.value.status) == raw.status.value
              && MethodValue(r.value.paymentMethod) == raw.paymentMethod.value
              && PaymentStatusValue(r.value.paymentStatus) == raw.paymentStatus.value
              && r.value.totalAmount == raw.totalAmount
              && (r.value.createdAt.Some? <==> raw.createdAt.Some?)
              && (r.value.createdAt.Some? ==> raw.createdAt.value == DateTime(r.value.createdAt.value))
              && |r.value.orderItems| == |raw.orderItems.value|
    ensures r.Err? ==> r.status == UNPROCESSABLE
  {
    if raw.clientId.None? || !ValidEnum(raw.status, ParseStatus) || !ValidEnum(raw.paymentMethod, ParseMethod)
       || !ValidEnum(raw.paymentStatus, ParsePaymentStatus) || !ValidDateTime(raw.createdAt) || raw.orderItems.None? then
      Err(UNPROCESSABLE, INVALID_BODY)
    else
      match ParseOrderItems(raw.orderItems.value)
      case Err(s, d) => Err(s, d)
      case Ok(items) =>
        Ok(OrderCreate(raw.clientId.value, ParseStatus(raw.status.value).value, ParseMethod(raw.paymentMethod.value).value,
                       ParsePaymentStatus(raw.paymentStatus.value).value, raw.totalAmount, ParseDateTime(raw.createdAt), items))
  }

  /** Every valid order request parses back from the body that carries it. */
  lemma OrderCreateRoundTrip(c: OrderCreate)
    requires forall k :: 0 <= k < |c.orderItems| ==> c.orderItems[k].quantity > 0
    ensures var items := seq(|c.orderItems|, k requires 0 <= k < |c.orderItems| =>
                             OrderItemInput(Some(c.orderItems[k].productId), Some(c.orderItems[k].quantity), c.orderItems[k].priceAtMoment));
      ParseOrderCreate(OrderCreateInput(Some(c.clientId), Some(StatusValue(c.status)), Some(MethodValue(c.paymentMethod)),
                                        Some(PaymentStatusValue(c.paymentStatus)), c.totalAmount,
                                        if c.createdAt.Some? then Some(DateTime(c.createdAt.value)) else None, Some(items))) == Ok(c)
  {
    var items := seq(|c.orderItems|, k requires 0 <= k < |c.orderItems| =>
                     OrderItemInput(Some(c.orderItems[k].productId), Some(c.orderItems[k].quantity), c.orderItems[k].priceAtMoment));
    StatusRoundTrip(c.status);
    MethodRoundTrip(c.paymentMethod);
    PaymentStatusRoundTrip(c.paymentStatus);
    var parsed := ParseOrderItems(items);
    assert parsed.Ok?;
    assert parsed.value == c.orderItems;
  }

  datatype OrderUpdateInput = OrderUpdateInput(
    clientId: Option<int>,
    status: Option<string>,
    paymentMethod: Option<string>,
    paymentStatus: Option<string>,
    totalAmount: Option<int>,
    createdAt: Option<DateTimeInput>)

  datatype OrderUpdate = OrderUpdate(
    clientId: Option<int>,
    status: Option<OrderStatus>,
    paymentMethod: Option<PaymentMethod>,
    paymentStatus: Option<PaymentStatus>,
    totalAmount: Option<int>,
    createdAt: Option<int>)

  predicate OptionalEnum<E>(v: Option<string>, parse: string -> Option<E>) {
    v.None? || parse(v.value).Some?
  }

  function ParseOptional<E>(v: Option<string>, parse: string -> Option<E>): Option<E>
    requires OptionalEnum(v, parse)
  {
    if v.None? then None else parse(v.value)
  }

  /** `OrderUpdate`: every field is optional; a present enum must be valid. */
  function ParseOrderUpdate(raw: OrderUpdateInput): (r: Result<OrderUpdate>)
    ensures r.Ok? <==>
              OptionalEnum(raw.status, ParseStatus) && OptionalEnum(raw.paymentMethod, ParseMethod)
              && OptionalEnum(raw.paymentStatus, ParsePaymentStatus) && ValidDateTime(raw.createdAt)
    ensures r.Ok? ==> r.value.clientId == raw.clientId && r.value.totalAmount == raw.totalAmount
    ensures r.Ok? ==> (r.value.createdAt.Some? <==> raw.createdAt.Some?)
    ensures r.Ok? && r.value.createdAt.Some? ==> raw.createdAt.value == DateTime(r.value.createdAt.value)
    ensures r.Ok? ==> (r.value.status.Some? <==> raw.status.Some?)
    ensures r.Ok? && r.value.status.Some? ==> StatusValue(r.value.status.value) == raw.status.value
    ensures r.Ok? ==> (r.value.paymentMethod.Some? <==> raw.paymentMethod.Some?)
    ensures r.Ok? && r.value.paymentMethod.Some? ==> MethodValue(r.value.paymentMethod.value) == raw.paymentMethod.value
    ensures r.Ok? ==> (r.value.paymentStatus.Some? <==> raw.paymentStatus.Some?)
    ensures r.Ok? && r.value.paymentStatus.Some? ==> PaymentStatusValue(r.value.paymentStatus.value) == raw.paymentStatus.value
    ensures r.Err? ==> r.status == UNPROCESSABLE
  {
    if OptionalEnum(raw.status, ParseStatus) && OptionalEnum(raw.paymentMethod, ParseMethod)
       && OptionalEnum(raw.paymentStatus, ParsePaymentStatus) && ValidDateTime(raw.createdAt) then
      Ok(OrderUpdate(raw.clientId, ParseOptional(raw.status, ParseStatus), ParseOptional(raw.paymentMethod, ParseMethod),
                     ParseOptional(raw.paymentStatus, ParsePaymentStatus), raw.totalAmount, ParseDateTime(raw.createdAt)))
    else
      Err(UNPROCESSABLE, INVALID_BODY)
  }

  /** Every update parses back from the body that carries it: a field left
      out stays out, and a present enum arrives as its value. */
  lemma OrderUpdateRoundTrip(u: OrderUpdate)
    ensures ParseOrderUpdate(OrderUpdateInput(
              u.clientId,
              if u.status.Some? then Some(StatusValue(u.status.value)) else None,
              if u.paymentMethod.Some? then Some(MethodValue(u.paymentMethod.value)) else None,
              if u.paymentStatus.Some? then Some(PaymentStatusValue(u.paymentStatus.value)) else None,
              u.totalAmount,
              if u.createdAt.Some? then Some(DateTime(u.createdAt.value)) else None)) == Ok(u)
  {
    if u.status.Some? { StatusRoundTrip(u.status.value); }
    if u.paymentMethod.Some? { MethodRoundTrip(u.paymentMethod.value); }
    if u.paymentStatus.Some? { PaymentStatusRoundTrip(u.paymentStatus.value); }
  }

  /** An empty update body is valid and changes nothing. */
  lemma EmptyOrderUpdateIsValid()
    ensures ParseOrderUpdate(OrderUpdateInput(None, None, None, None, None, None)) == Ok(OrderUpdate(None, None, None, None, None, None))
  {
  }

  // ---------------------------------------------------------------------------
  // Stored rows and the order service.

  datatype Order = Order(
    id: int,
    clientId: int,
    status: OrderStatus,
    paymentMethod: Option<PaymentMethod>,
    paymentStatus: PaymentStatus,
    totalAmount: int,
    createdAt: int)

  datatype OrderItem = OrderItem(id: int, orderId: int, productId: int, quantity: int, priceAtMoment: int)

  /** The order and order-item tables with their autoincrement counters. */
  datatype Store = Store(orders: seq<Order>, items: seq<OrderItem>, nextOrderId: int, nextItemId: int)

  /** A new order, its items, and the tables they were written to. */
  datatype Placed = Placed(db: Store, order: Order, items: seq<OrderItem>)

  /** One call of the stock oracle. */
  datatype StockCall = StockCall(productId: int, quantity: int)

  /** Order ids are unique and below the counter; item ids are below theirs;
      every item belongs to an order. */
  ghost predicate Valid(db: Store) {
    && (forall i, j :: 0 <= i < |db.orders| && 0 <= j < |db.orders| && db.orders[i].id == db.orders[j].id ==> i == j)
    && (forall i :: 0 <= i < |db.orders| ==> db.orders[i].id < db.nextOrderId)
    && (forall i :: 0 <= i < |db.items| ==> db.items[i].id < db.nextItemId)
    && (forall i :: 0 <= i < |db.items| ==> exists o :: o in db.orders && o.id == db.items[i].orderId)
  }

  /** Sum of price × quantity over order items. */
  function LineTotal(items: seq<OrderItem>): int {
    if items == [] then 0
    else LineTotal(items[..|items| - 1]) + items[|items| - 1].priceAtMoment * items[|items| - 1].quantity
  }

  /** What the oracle answers for the `k`-th item of the request. */
  function Reserved(reserve: (nat, int, int) -> Result<Products.Product>, items: seq<OrderItemCreate>, k: nat): Result<Products.Product>
    requires k < |items|
  {
    reserve(k, items[k].productId, items[k].quantity)
  }

  /** The items of a request priced by the stock oracle, and their total. */
  datatype Priced = Priced(items: seq<OrderItem>, total: int)

  /** The item loop of `create_order`: reserves stock once per item, in order,
      builds each item row with the reserved product's sale price, and sums
      price × quantity. The first refused reservation ends the loop with the
      oracle's error. */
  method PriceItems(db: Store, data: OrderCreate, reserve: (nat, int, int) -> Result<Products.Product>)
    returns (r: Result<Priced>, calls: seq<StockCall>)
    ensures |calls| <= |data.orderItems|
    ensures forall k :: 0 <= k < |calls| ==> calls[k] == StockCall(data.orderItems[k].productId, data.orderItems[k].quantity)
    ensures r.Ok? <==> forall k :: 0 <= k < |data.orderItems| ==> Reserved(reserve, data.orderItems, k).Ok?
    ensures r.Ok? ==> |calls| == |data.orderItems|
    ensures r.Err? ==>
              && 0 < |calls|
              && (forall k :: 0 <= k < |calls| - 1 ==> Reserved(reserve, data.orderItems, k).Ok?)
              && var failed := Reserved(reserve, data.orderItems, |calls| - 1);
                 failed.Err? && r == Err(failed.status, failed.detail)
    ensures r.Ok? ==>
              && |r.value.items| == |data.orderItems|
              && r.value.total == LineTotal(r.value.items)
              && forall k :: 0 <= k < |data.orderItems| ==>
                   r.value.items[k] == OrderItem(db.nextItemId + k, db.nextOrderId, data.orderItems[k].productId,
                                                 data.orderItems[k].quantity, Reserved(reserve, data.orderItems, k).value.salePrice)
  {
    var total := 0;
    var built: seq<OrderItem> := [];
    calls := [];
    var i := 0;
    while i < |data.orderItems|
      invariant 0 <= i <= |data.orderItems|
      invariant |built| == i && |calls| == i
      invariant forall k :: 0 <= k < i ==> calls[k] == StockCall(data.orderItems[k].productId, data.orderItems[k].quantity)
      invariant forall k :: 0 <= k < i ==> Reserved(reserve, data.orderItems, k).Ok?
      invariant forall k :: 0 <= k < i ==>
                  built[k] == OrderItem(db.nextItemId + k, db.nextOrderId, data.orderItems[k].productId,
                                        data.orderItems[k].quantity, Reserved(reserve, data.orderItems, k).value.salePrice)
      invariant total == LineTotal(built)
    {
      var item := data.orderItems[i];
      calls := calls + [StockCall(item.productId, item.quantity)];
      var reserved := reserve(i, item.productId, item.quantity);
      if reserved.Err? {
        assert !Reserved(reserve, data.orderItems, i).Ok?;
        r := Err(reserved.status, reserved.detail);
        return;
      }
      var price := reserved.value.salePrice;
      total := total + price * item.quantity;
      var line := OrderItem(db.nextItemId + i, db.nextOrderId, item.productId, item.quantity, price);
      assert (built + [line])[..|built|] == built;
      built := built + [line];
      i := i + 1;
    }
    r := Ok(Priced(built, total));
  }

  /** `create_order`: prices the items through the stock oracle, then stores
      the order, stamped `now`, with the computed total (any client-supplied
      total is ignored) and its items linked to it. The first refused
      reservation aborts the request with the oracle's error. */
  method CreateOrder(db: Store, data: OrderCreate, now: int, reserve: (nat, int, int) -> Result<Products.Product>)
    returns (r: Result<Placed>, calls: seq<StockCall>)
    ensures |calls| <= |data.orderItems|
    ensures forall k :: 0 <= k < |calls| ==> calls[k] == StockCall(data.orderItems[k].productId, data.orderItems[k].quantity)
    ensures r.Ok? <==> forall k :: 0 <= k < |data.orderItems| ==> Reserved(reserve, data.orderItems, k).Ok?
    ensures r.Ok? ==> |calls| == |data.orderItems|
    ensures r.Err? ==>
              && 0 < |calls|
              && (forall k :: 0 <= k < |calls| - 1 ==> Reserved(reserve, data.orderItems, k).Ok?)
              && var failed := Reserved(reserve, data.orderItems, |calls| - 1);
                 failed.Err? && r == Err(failed.status, failed.detail)
    ensures r.Ok? ==>
              var o := r.value.order;
              && o.id == db.nextOrderId
              && o.clientId == data.clientId
              && o.status == data.status
              && o.paymentMethod == Some(data.paymentMethod)
              && o.paymentStatus == data.paymentStatus
              && o.createdAt == now
              && o.totalAmount == LineTotal(r.value.items)
    ensures r.Ok? ==>
              && |r.value.items| == |data.orderItems|
              && forall k :: 0 <= k < |data.orderItems| ==>
                   && r.value.items[k].orderId == r.value.order.id
                   && r.value.items[k].productId == data.orderItems[k].productId
                   && r.value.items[k].quantity == data.orderItems[k].quantity
                   && r.value.items[k].priceAtMoment == Reserved(reserve, data.orderItems, k).value.salePrice
    ensures r.Ok? ==>
              && r.value.db.orders == db.orders + [r.value.order]
              && r.value.db.items == db.items + r.value.items
    ensures r.Ok? && Valid(db) ==> Valid(r.value.db)
  {
    var priced;
    priced, calls := PriceItems(db, data, reserve);
    if priced.Err? {
      r := Err(priced.status, priced.detail);
      return;
    }
    var built := priced.value.items;
    var order := Order(db.nextOrderId, data.clientId, data.status, Some(data.paymentMethod), data.paymentStatus,
                       priced.value.total, now);
    var db' := Store(db.orders + [order], db.items + built, db.nextOrderId + 1, db.nextItemId + |built|);
    if Valid(db) {
      ValidAfterPlacing(db, order, built);
    }
    r := Ok(Placed(db', order, built));
  }

  lemma ValidAfterPlacing(db: Store, order: Order, built: seq<OrderItem>)
    requires Valid(db)
    requires order.id == db.nextOrderId
    requires forall k :: 0 <= k < |built| ==> built[k].orderId == order.id && built[k].id == db.nextItemId + k
    ensures Valid(Store(db.orders + [order], db.items + built, db.nextOrderId + 1, db.nextItemId + |built|))
  {
    var s := Store(db.orders + [order], db.items + built, db.nextOrderId + 1, db.nextItemId + |built|);
    assert forall i :: 0 <= i < |db.orders| ==> s.orders[i] == db.orders[i];
    forall i | 0 <= i < |s.items|
      ensures exists o :: o in s.orders && o.id == s.items[i].orderId
    {
      if i < |db.items| {
        assert s.items[i] == db.items[i];
        var o :| o in db.orders && o.id == db.items[i].orderId;
        assert o in s.orders;
      } else {
        assert s.items[i] == built[i - |db.items|];
        assert order in s.orders;
      }
    }
  }

  /** The date window of `list_orders`: both bounds inclusive (`BETWEEN`), or
      either bound alone. */
  predicate DateMatches(o: Order, start: Option<int>, end: Option<int>) {
    if start.Some? && end.Some? then start.value <= o.createdAt <= end.value
    else if start.Some? then o.createdAt >= start.value
    else if end.Some? then o.createdAt <= end.value
    else true
  }

  /** The category filter joins the order's items to their products. */
  predicate CategoryMatches(db: Store, products: seq<Products.Product>, o: Order, category: Option<string>) {
    category.Some? && Truthy(category.value) ==>
      exists it, p :: it in db.items && p in products && it.orderId == o.id && p.id == it.productId
                      && ILike(p.category, category.value)
  }

  /** Non-admins see their own orders only; an admin may narrow to one client. */
  predicate OwnerMatches(o: Order, caller: Users.User, clientId: Option<int>) {
    if caller.role != ADMIN then o.clientId == caller.id
    else clientId.Some? && clientId.value != 0 ==> o.clientId == clientId.value
  }

  predicate OrderMatches(db: Store, products: seq<Products.Product>, o: Order, caller: Users.User,
                         start: Option<int>, end: Option<int>, category: Option<string>,
                         orderId: Option<int>, status: Option<OrderStatus>, clientId: Option<int>)
  {
    && DateMatches(o, start, end)
    && CategoryMatches(db, products, o, category)
    && (orderId.Some? && orderId.value != 0 ==> o.id == orderId.value)
    && (status.Some? ==> o.status == status.value)
    && OwnerMatches(o, caller, clientId)
  }

  /** `list_orders`: every order passing the date, category, id, status and
      ownership filters, in table order. */
  function ListOrders(db: Store, products: seq<Products.Product>, caller: Users.User,
                      start: Option<int>, end: Option<int>, category: Option<string>,
                      orderId: Option<int>, status: Option<OrderStatus>, clientId: Option<int>): (r: seq<Order>)
    requires category.Some? ==> NoWildcards(category.value)
    ensures forall o :: o in r ==> o in db.orders
    ensures caller.role != ADMIN ==> forall o :: o in r ==> o.clientId == caller.id
    ensures caller.role == ADMIN && clientId.Some? && clientId.value != 0 ==> forall o :: o in r ==> o.clientId == clientId.value
    ensures start.Some? ==> forall o :: o in r ==> start.value <= o.createdAt
    ensures end.Some? ==> forall o :: o in r ==> o.createdAt <= end.value
    ensures orderId.Some? && orderId.value != 0 ==> forall o :: o in r ==> o.id == orderId.value
    ensures status.Some? ==> forall o :: o in r ==> o.status == status.value
    ensures category.Some? && category.value != "" ==> forall o :: o in r ==> CategoryMatches(db, products, o, category)
  {
    Query.Filter(db.orders, (o: Order) => OrderMatches(db, products, o, caller, start, end, category, orderId, status, clientId))
  }

  /** Every order that passes all filters is listed. */
  lemma ListOrdersComplete(db: Store, products: seq<Products.Product>, caller: Users.User,
                           start: Option<int>, end: Option<int>, category: Option<string>,
                           orderId: Option<int>, status: Option<OrderStatus>, clientId: Option<int>, o: Order)
    requires category.Some? ==> NoWildcards(category.value)
    requires o in db.orders && OrderMatches(db, products, o, caller, start, end, category, orderId, status, clientId)
    ensures o in ListOrders(db, products, caller, start, end, category, orderId, status, clientId)
  {
  }

  /** `order_id` is a truthiness test: 0 filters nothing. */
  lemma ListOrdersZeroIdIsNoFilter(db: Store, products: seq<Products.Product>, caller: Users.User,
                                   start: Option<int>, end: Option<int>, category: Option<string>,
                                   status: Option<OrderStatus>, clientId: Option<int>)
    requires category.Some? ==> NoWildcards(category.value)
    ensures ListOrders(db, products, caller, start, end, category, Some(0), status, clientId)
         == ListOrders(db, products, caller, start, end, category, None, status, clientId)
  {
    Query.FilterCongruent(db.orders,
      (o: Order) => OrderMatches(db, products, o, caller, start, end, category, Some(0), status, clientId),
      (o: Order) => OrderMatches(db, products, o, caller, start, end, category, None, status, clientId));
  }

  /** A non-admin's `client_id` filter is ignored: they get their own orders either way. */
  lemma ListOrdersNonAdminIgnoresClientFilter(db: Store, products: seq<Products.Product>, caller: Users.User,
                                              start: Option<int>, end: Option<int>, category: Option<string>,
                                              orderId: Option<int>, status: Option<OrderStatus>, clientId: Option<int>)
    requires category.Some? ==> NoWildcards(category.value)
    requires caller.role != ADMIN
    ensures ListOrders(db, products, caller, start, end, category, orderId, status, clientId)
         == ListOrders(db, products, caller, start, end, category, orderId, status, None)
  {
    Query.FilterCongruent(db.orders,
      (o: Order) => OrderMatches(db, products, o, caller, start, end, category, orderId, status, clientId),
      (o: Order) => OrderMatches(db, products, o, caller, start, end, category, orderId, status, None));
  }

  /** An admin with no filter sees the whole table. */
  lemma ListOrdersAdminUnfiltered(db: Store, products: seq<Products.Product>, caller: Users.User)
    requires caller.role == ADMIN
    ensures ListOrders(db, products, caller, None, None, None, None, None, None) == db.orders
  {
    Query.FilterAll(db.orders, (o: Order) => OrderMatches(db, products, o, caller, None, None, None, None, None, None));
  }

  /** `get_order_by_id`: the order with that id, or 404. */
  function GetOrderById(db: Store, orderId: int): (r: Result<Order>)
    ensures r.Ok? ==> r.value in db.orders && r.value.id == orderId
    ensures r.Err? <==> forall o :: o in db.orders ==> o.id != orderId
    ensures r.Err? ==> r == Err(NOT_FOUND, ORDER_NOT_FOUND)
  {
    match Query.First(db.orders, (o: Order) => o.id == orderId)
    case None => Err(NOT_FOUND, ORDER_NOT_FOUND)
    case Some(i) => Ok(db.orders[i])
  }
}

=== FILE: outcomes.dfy ===
/** Outcome types shared by every service of the model.

    A service call either returns a value or raises. Raising an
    `HTTPException(status_code, detail)` becomes `Err(status, detail)`; any other
    Python exception that no handler turns into an HTTP error is answered by
    the web framework with 500 Internal Server Error, and is modelled as
    `Err(500, <the exception's message>)`.
 */
module Outcomes {

  /** A value that may be absent (Python's `Optional[...]` / `None`). */
  datatype Option<+T> = None | Some(value: T)

  /** The result of a service call. */
  datatype Result<+T> = Ok(value: T) | Err(status: int, detail: string) {

    predicate IsFailure() {
      Err?
    }

    function PropagateFailure<U>(): Result<U>
      requires Err?
    {
      Err(status, detail)
    }

    function Extract(): T
      requires Ok?
    {
      value
    }
  }

  const UNAUTHORIZED := 401
  const FORBIDDEN := 403
  const NOT_FOUND := 404
  const CONFLICT := 409
  const UNPROCESSABLE := 422
  const INTERNAL_ERROR := 500
}

=== FILE: products.dfy ===
/** The product catalog: filtered, paginated listing, and creation of a
    product together with one image row per uploaded file.

    Prices are exact integers (cents), matching the `Numeric(10, 2)` column.
 */
module Products {

  import opened Outcomes
  import opened Text
  import Query

  datatype Product = Product(
    id: int,
    name: string,
    salePrice: int,
    description: string,
    stock: int,
    barCode: string,
    category: string,
    expirationDate: Option<int>)

  /** The fields a new product is created from. */
  datatype ProductCreate = ProductCreate(
    name: string,
    salePrice: int,
    description: string,
    stock: int,
    barCode: string,
    category: string,
    expirationDate: Option<int>)

  datatype ProductImage = ProductImage(id: int, productId: int, imagePath: string)

  /** The product and image tables with their autoincrement counters. */
  datatype Store = Store(products: seq<Product>, images: seq<ProductImage>, nextProductId: int, nextImageId: int)

  datatype Created = Created(db: Store, product: Product)

  /** Ids are unique and below the counters, and every image belongs to a product. */
  ghost predicate Valid(db: Store) {
    && (forall i, j :: 0 <= i < |db.products| && 0 <= j < |db.products| && db.products[i].id == db.products[j].id ==> i == j)
    && (forall i :: 0 <= i < |db.products| ==> db.products[i].id < db.nextProductId)
    && (forall i :: 0 <= i < |db.images| ==> db.images[i].id < db.nextImageId)
    && (forall i :: 0 <= i < |db.images| ==> exists p :: p in db.products && p.id == db.images[i].productId)
  }

  /** `stock=True` keeps products in stock, `stock=False` keeps sold-out ones,
      `None` keeps all. */
  predicate StockMatches(p: Product, stock: Option<bool>) {
    match stock
    case None => true
    case Some(inStock) => if inStock then p.stock > 0 else p.stock == 0
  }

  /** The conjunction of the optional filters of `list_products`. */
  predicate ProductMatches(p: Product, stock: Option<bool>, category: Option<string>, maxPrice: Option<int>) {
    && StockMatches(p, stock)
    && (category.Some? && Truthy(category.value) ==> ILike(p.category, category.value))
    && (maxPrice.Some? ==> p.salePrice <= maxPrice.value)
  }

  function Matching(db: Store, stock: Option<bool>, category: Option<string>, maxPrice: Option<int>): seq<Product> {
    Query.Filter(db.products, (p: Product) => ProductMatches(p, stock, category, maxPrice))
  }

  /** `list_products`: the matching products in table order, then
      `OFFSET skip LIMIT limit`. */
  function ListProducts(db: Store, skip: nat, limit: nat, stock: Option<bool>, category: Option<string>, maxPrice: Option<int>): (r: seq<Product>)
    requires category.Some? ==> NoWildcards(category.value)
    ensures |r| <= limit
    ensures skip >= |Matching(db, stock, category, maxPrice)| ==> r == []
    ensures skip < |Matching(db, stock, category, maxPrice)| ==> |r| == Query.Min(limit, |Matching(db, stock, category, maxPrice)| - skip)
    ensures forall k :: 0 <= k < |r| ==> skip + k < |Matching(db, stock, category, maxPrice)| && r[k] == Matching(db, stock, category, maxPrice)[skip + k]
    ensures forall p :: p in r ==> p in db.products
    ensures forall p :: p in r && stock == Some(true) ==> p.stock > 0
    ensures forall p :: p in r && stock == Some(false) ==> p.stock == 0
    ensures forall p :: p in r && category.Some? && category.value != "" ==> ILike(p.category, category.value)
    ensures forall p :: p in r && maxPrice.Some? ==> p.salePrice <= maxPrice.value
  {
    Query.Page(Matching(db, stock, category, maxPrice), skip, limit)
  }

  /** With no filter set (and an empty category counting as none), listing is a
      plain window onto the table. */
  lemma ListProductsUnfiltered(db: Store, skip: nat, limit: nat, category: Option<string>)
    requires category.None? || category.value == ""
    ensures ListProducts(db, skip, limit, None, category, None) == Query.Page(db.products, skip, limit)
  {
    Query.FilterAll(db.products, (p: Product) => ProductMatches(p, None, category, None));
  }

  /** A first page large enough to hold the table returns every match. */
  lemma ListProductsComplete(db: Store, limit: nat, stock: Option<bool>, category: Option<string>, maxPrice: Option<int>, p: Product)
    requires category.Some? ==> NoWildcards(category.value)
    requires limit >= |db.products|
    requires p in db.products && ProductMatches(p, stock, category, maxPrice)
    ensures p in ListProducts(db, 0, limit, stock, category, maxPrice)
  {
    var f := Matching(db, stock, category, maxPrice);
    var j :| 0 <= j < |f| && f[j] == p;
    assert Query.Page(f, 0, limit)[j] == p;
  }

  /** `_create_images`: one image row per path, in order, all pointing at the
      product, with ids handed out from `firstId`. */
  function CreateImages(productId: int, paths: seq<string>, firstId: int): (r: seq<ProductImage>)
    ensures |r| == |paths|
    ensures forall k :: 0 <= k < |r| ==> r[k].productId == productId && r[k].imagePath == paths[k]
    ensures forall k :: 0 <= k < |r| ==> r[k].id == firstId + k
  {
    if paths == [] then []
    else [ProductImage(firstId, productId, paths[0])] + CreateImages(productId, paths[1..], firstId + 1)
  }

  /** `create_product`: stores the schema fields unchanged under a fresh id,
      then attaches one image per path to it. */
  function CreateProduct(db: Store, data: ProductCreate, imagePaths: seq<string>): (r: Created)
    ensures r.db.products == db.products + [r.product]
    ensures r.product.id == db.nextProductId
    ensures r.product.name == data.name && r.product.salePrice == data.salePrice
    ensures r.product.description == data.description && r.product.stock == data.stock
    ensures r.product.barCode == data.barCode && r.product.category == data.category
    ensures r.product.expirationDate == data.expirationDate
    ensures |r.db.images| == |db.images| + |imagePaths|
    ensures r.db.images[..|db.images|] == db.images
    ensures forall k :: 0 <= k < |imagePaths| ==>
              r.db.images[|db.images| + k].productId == r.product.id && r.db.images[|db.images| + k].imagePath == imagePaths[k]
  {
    var product := Product(db.nextProductId, data.name, data.salePrice, data.description,
                           data.stock, data.barCode, data.category, data.expirationDate);
    var images := CreateImages(product.id, imagePaths, db.nextImageId);
    var images' := db.images + images;
    assert forall k :: 0 <= k < |imagePaths| ==> images'[|db.images| + k] == images[k];
    Created(Store(db.products + [product], images', db.nextProductId + 1, db.nextImageId + |imagePaths|), product)
  }

  /** The new image rows carry exactly the given set of paths. */
  lemma CreateProductImagePaths(db: Store, data: ProductCreate, imagePaths: seq<string>)
    ensures var r := CreateProduct(db, data, imagePaths);
      (set img | img in r.db.images[|db.images|..] :: img.imagePath) == set path | path in imagePaths
  {
    var r := CreateProduct(db, data, imagePaths);
    var added := r.db.images[|db.images|..];
    assert forall k :: 0 <= k < |added| ==> added[k] == r.db.images[|db.images| + k];
    forall path | path in imagePaths
      ensures exists img :: img in added && img.imagePath == path
    {
      var k :| 0 <= k < |imagePaths| && imagePaths[k] == path;
      assert added[k] in added;
    }
  }

  /** Creating a product keeps ids unique and every image attached to a product. */
  lemma CreatePreservesValid(db: Store, data: ProductCreate, imagePaths: seq<string>)
    requires Valid(db)
    ensures Valid(CreateProduct(db, data, imagePaths).db)
  {
    var r := CreateProduct(db, data, imagePaths);
    var s := r.db;
    assert forall i :: 0 <= i < |db.products| ==> s.products[i] == db.products[i];
    forall i | 0 <= i < |s.images|
      ensures exists p :: p in s.products && p.id == s.images[i].productId
    {
      if i < |db.images| {
        assert s.images[i] == db.images[i];
        var p :| p in db.products && p.id == db.images[i].productId;
        assert p in s.products;
      } else {
        assert s.images[i].productId == r.product.id;
        assert r.product in s.products;
      }
    }
  }
}

=== FILE: query.dfy ===
/** The two query shapes the services build: a conjunction of filters kept in
    table order, then `.offset(skip).limit(limit)`.
 */
module Query {

  import opened Outcomes

  function Min(a: int, b: int): int {
    if a <= b then a else b
  }

  /** Rows of `s` that satisfy `keep`, in their original order. */
  function Filter<T(!new)>(s: seq<T>, keep: T -> bool): (r: seq<T>)
    ensures |r| <= |s|
    ensures forall x :: x in r <==> x in s && keep(x)
  {
    if s == [] then []
    else if keep(s[0]) then [s[0]] + Filter(s[1..], keep)
    else Filter(s[1..], keep)
  }

  /** Filtering a concatenation filters each part and keeps them in order:
      with `FilterOne`, this fixes both the order and the multiplicity of the
      rows a filter keeps. */
  lemma {:induction false} FilterAppend<T(!new)>(a: seq<T>, b: seq<T>, keep: T -> bool)
    ensures Filter(a + b, keep) == Filter(a, keep) + Filter(b, keep)
  {
    if a == [] {
      assert a + b == b;
    } else {
      assert (a + b)[0] == a[0];
      assert (a + b)[1..] == a[1..] + b;
      FilterAppend(a[1..], b, keep);
    }
  }

  /** A single row is kept exactly when it satisfies the filter. */
  lemma FilterOne<T(!new)>(x: T, keep: T -> bool)
    ensures Filter([x], keep) == if keep(x) then [x] else []
  {
  }

  /** `.first()`: the position of the first row that satisfies `matches`. */
  function First<T>(s: seq<T>, matches: T -> bool): (r: Option<nat>)
    ensures r.Some? ==> r.value < |s| && matches(s[r.value])
    ensures r.Some? ==> forall j :: 0 <= j < r.value ==> !matches(s[j])
    ensures r.None? ==> forall j :: 0 <= j < |s| ==> !matches(s[j])
  {
    if s == [] then None
    else if matches(s[0]) then Some(0)
    else match First(s[1..], matches)
      case None => None
      case Some(k) => Some(k + 1)
  }

  /** SQL `OFFSET skip LIMIT limit` over an already filtered result. */
  function Page<T>(s: seq<T>, skip: nat, limit: nat): (r: seq<T>)
    ensures |r| <= limit
    ensures skip >= |s| ==> r == []
    ensures skip < |s| ==> |r| == Min(limit, |s| - skip)
    ensures forall k :: 0 <= k < |r| ==> skip + k < |s| && r[k] == s[skip + k]
  {
    if skip >= |s| then [] else s[skip..Min(|s|, skip + limit)]
  }

  /** Filtering keeps every row when the filter accepts all of them. */
  lemma {:induction false} FilterAll<T(!new)>(s: seq<T>, keep: T -> bool)
    requires forall x :: x in s ==> keep(x)
    ensures Filter(s, keep) == s
  {
    if s != [] {
      assert forall x :: x in s[1..] ==> x in s;
      FilterAll(s[1..], keep);
    }
  }

  /** Two filters that agree on every row of `s` select the same rows. */
  lemma {:induction false} FilterCongruent<T(!new)>(s: seq<T>, a: T -> bool, b: T -> bool)
    requires forall x :: x in s ==> a(x) == b(x)
    ensures Filter(s, a) == Filter(s, b)
  {
    if s != [] {
      assert forall x :: x in s[1..] ==> x in s;
      FilterCongruent(s[1..], a, b);
    }
  }
}

=== FILE: text.dfy ===
/** String helpers: ASCII case folding, SQL `ILIKE '%p%'` matching and
    single-character replacement, as used by the services' filters and by the
    upload folder naming.
 */
module Text {

  predicate IsUpperAscii(c: char) {
    'A' <= c <= 'Z'
  }

  /** `str.lower()` restricted to ASCII letters. */
  function LowerChar(c: char): (r: char)
    ensures !IsUpperAscii(r)
    ensures IsUpperAscii(c) ==> r as int == c as int + 32
    ensures !IsUpperAscii(c) ==> r == c
  {
    if IsUpperAscii(c) then (c as int + 32) as char else c
  }

  function Lower(s: string): (r: string)
    ensures |r| == |s|
    ensures forall i :: 0 <= i < |s| ==> r[i] == LowerChar(s[i])
  {
    if s == [] then [] else [LowerChar(s[0])] + Lower(s[1..])
  }

  /** `str.replace(from, to)` for one-character `from` and `to`. */
  function ReplaceChar(s: string, from: char, to: char): (r: string)
    ensures |r| == |s|
    ensures forall i :: 0 <= i < |s| ==> r[i] == (if s[i] == from then to else s[i])
  {
    if s == [] then [] else [if s[0] == from then to else s[0]] + ReplaceChar(s[1..], from, to)
  }

  /** `p` occurs in `s` starting at position `i`. */
  predicate OccursAt(p: string, s: string, i: int) {
    0 <= i <= |s| - |p| && s[i..i + |p|] == p
  }

  /** `p` occurs as a contiguous block of `s`. */
  predicate IsSubstring(p: string, s: string) {
    exists i :: 0 <= i <= |s| - |p| && OccursAt(p, s, i)
  }

  /** A pattern a user typed contains none of SQL `LIKE`'s wildcard characters. */
  predicate NoWildcards(p: string) {
    '%' !in p && '_' !in p
  }

  /** `column ILIKE '%p%'`: case-insensitive substring match. */
  predicate ILike(column: string, p: string) {
    IsSubstring(Lower(p), Lower(column))
  }

  /** Python truthiness of an optional string filter: `None` and `""` are false. */
  predicate Truthy(s: string) {
    s != []
  }

  lemma LowerIdempotent(s: string)
    ensures Lower(Lower(s)) == Lower(s)
  {
    assert forall i :: 0 <= i < |s| ==> LowerChar(LowerChar(s[i])) == LowerChar(s[i]);
  }

  /** `ILIKE` ignores the case of the pattern and of the column. */
  lemma ILikeIgnoresCase(column: string, p: string)
    ensures ILike(column, p) <==> ILike(Lower(column), Lower(p))
  {
    LowerIdempotent(column);
    LowerIdempotent(p);
  }
}

=== FILE: users.dfy ===
/** The user registry: accounts with a role, looked up, created, updated,
    deleted and listed over an in-memory table.

    Passwords are stored through `hash`, an uninterpreted stand-in for the
    bcrypt context. Ids come from an autoincrement counter kept with the table.
 */
module Users {

  import opened Outcomes
  import opened Text
  import Query

  const ACCESS_DENIED := "Access denied."
  const USER_NOT_FOUND := "User not found."
  const ACCESS_DENIED_UPDATE := "Access denied. You can only update your own data unless you are an administrator."
  const ADMIN_ROLE_REQUIRED := "Access denied. Only administrators can update user roles."
  const EMAIL_ALREADY_REGISTERED := "Email already registered."
  const CPF_ALREADY_REGISTERED := "CPF already registered."
  const CANNOT_DELETE_OWN_USER := "You cannot delete your own user."

  /** The role literal the user service compares with (lower case). */
  const ADMIN := "admin"

  /** Message of the `AttributeError` raised by reading the misspelled
      attribute `ACESS_DENIED`, which the service does not define. */
  const MISSING_ACESS_DENIED := "'UserService' object has no attribute 'ACESS_DENIED'"

  /** Message of the `AttributeError` raised by reading `role` from the create schema. */
  const MISSING_ROLE := "'UserCreate' object has no attribute 'role'"

  datatype User = User(id: int, name: string, cpf: string, email: string, password: string, role: string)

  /** The fields a new account is created from. */
  datatype UserCreate = UserCreate(name: string, cpf: string, email: string, password: string, role: string)

  /** A partial update: `Some` marks a field the request set. */
  datatype UserUpdate = UserUpdate(
    name: Option<string>,
    cpf: Option<string>,
    email: Option<string>,
    password: Option<string>,
    role: Option<string>)

  /** The user table and the next id its autoincrement will hand out. */
  datatype Store = Store(users: seq<User>, nextId: int)

  /** A user together with the table it was written to. */
  datatype Saved = Saved(db: Store, user: User)

  predicate IsAdmin(u: User) {
    u.role == ADMIN
  }

  ghost predicate UniqueIds(users: seq<User>) {
    forall i, j :: 0 <= i < |users| && 0 <= j < |users| && users[i].id == users[j].id ==> i == j
  }

  ghost predicate UniqueEmails(users: seq<User>) {
    forall i, j :: 0 <= i < |users| && 0 <= j < |users| && users[i].email == users[j].email ==> i == j
  }

  ghost predicate UniqueCpfs(users: seq<User>) {
    forall i, j :: 0 <= i < |users| && 0 <= j < |users| && users[i].cpf == users[j].cpf ==> i == j
  }

  /** The table invariant: ids, emails and CPFs are unique, and the counter is
      past every id in use. */
  ghost predicate Valid(db: Store) {
    && UniqueIds(db.users)
    && UniqueEmails(db.users)
    && UniqueCpfs(db.users)
    && (forall i :: 0 <= i < |db.users| ==> db.users[i].id < db.nextId)
  }

  function IndexOfId(users: seq<User>, id: int): Option<nat> {
    Query.First(users, (u: User) => u.id == id)
  }

  /** `get_user_by_email`: the first row, in table order, with that email. */
  function FindByEmail(users: seq<User>, email: string): (r: Option<User>)
    ensures r.Some? ==> exists i :: 0 <= i < |users| && users[i] == r.value
                          && forall j :: 0 <= j < i ==> users[j].email != email
    ensures r.Some? ==> r.value in users && r.value.email == email
    ensures r.None? ==> forall u :: u in users ==> u.email != email
  {
    match Query.First(users, (u: User) => u.email == email)
    case None => None
    case Some(i) => Some(users[i])
  }

  /** `get_user_by_id`: a caller who is neither an admin nor the owner is
      refused before the lookup; an id that is not in the table is 404. */
  function GetUserById(db: Store, userId: int, caller: User): (r: Result<User>)
    ensures !IsAdmin(caller) && caller.id != userId ==> r == Err(FORBIDDEN, ACCESS_DENIED)
    ensures ((IsAdmin(caller) || caller.id == userId) && (forall u :: u in db.users ==> u.id != userId))
              ==> r == Err(NOT_FOUND, USER_NOT_FOUND)
    ensures (IsAdmin(caller) || caller.id == userId) && (exists u :: u in db.users && u.id == userId) ==> r.Ok?
    ensures r.Ok? ==> r.value in db.users && r.value.id == userId
  {
    if !IsAdmin(caller) && caller.id != userId then
      Err(FORBIDDEN, ACCESS_DENIED)
    else
      match IndexOfId(db.users, userId)
      case None => Err(NOT_FOUND, USER_NOT_FOUND)
      case Some(i) => Ok(db.users[i])
  }

  /** `get_user_by_id` as written: the refusal reads the undefined attribute
      `ACESS_DENIED`, so the caller gets an `AttributeError` (500) instead of 403. */
  function GetUserByIdAsWritten(db: Store, userId: int, caller: User): (r: Result<User>)
    ensures !IsAdmin(caller) && caller.id != userId ==> r == Err(INTERNAL_ERROR, MISSING_ACESS_DENIED)
    ensures IsAdmin(caller) || caller.id == userId ==> r == GetUserById(db, userId, caller)
  {
    if !IsAdmin(caller) && caller.id != userId then
      Err(INTERNAL_ERROR, MISSING_ACESS_DENIED)
    else
      match IndexOfId(db.users, userId)
      case None => Err(NOT_FOUND, USER_NOT_FOUND)
      case Some(i) => Ok(db.users[i])
  }

  /** The misspelling turns every refused lookup into a server error: the
      intended 403 never reaches the client. */
  lemma AccessDeniedTypo(db: Store, userId: int, caller: User)
    requires !IsAdmin(caller) && caller.id != userId
    ensures GetUserByIdAsWritten(db, userId, caller).status == INTERNAL_ERROR
    ensures GetUserById(db, userId, caller).status == FORBIDDEN
    ensures GetUserByIdAsWritten(db, userId, caller) != GetUserById(db, userId, caller)
  {
  }

  /** A concrete request that shows the discrepancy: user 2 asks for user 1. */
  lemma AccessDeniedTypoExample()
    ensures GetUserByIdAsWritten(Store([], 3), 1, User(2, "Ana", "1", "a@x", "h", "user"))
              == Err(INTERNAL_ERROR, MISSING_ACESS_DENIED)
  {
  }

  /** `check_unique_email` / `check_unique_cpf`: the first row holding `key`
      is a conflict unless it is the excluded row. */
  function CheckUnique(users: seq<User>, key: User -> string, value: string, exclude: Option<int>, conflict: string): (r: Result<()>)
    ensures r.Err? ==> r == Err(CONFLICT, conflict)
    ensures exclude.None? ==> (r.Ok? <==> forall u :: u in users ==> key(u) != value)
    ensures r.Err? ==> exists u :: u in users && key(u) == value && (exclude.None? || u.id != exclude.value)
    ensures exclude.Some? && (forall u :: u in users && key(u) == value ==> u.id == exclude.value) ==> r.Ok?
  {
    match Query.First(users, (u: User) => key(u) == value)
    case None => Ok(())
    case Some(i) =>
      if exclude.None? || users[i].id != exclude.value then Err(CONFLICT, conflict) else Ok(())
  }

  function Email(u: User): string { u.email }
  function Cpf(u: User): string { u.cpf }

  function CheckUniqueEmail(users: seq<User>, email: string, exclude: Option<int>): Result<()> {
    CheckUnique(users, Email, email, exclude, EMAIL_ALREADY_REGISTERED)
  }

  function CheckUniqueCpf(users: seq<User>, cpf: string, exclude: Option<int>): Result<()> {
    CheckUnique(users, Cpf, cpf, exclude, CPF_ALREADY_REGISTERED)
  }

  /** With unique keys, the check with an excluded id passes exactly when no
      OTHER row holds the key. */
  lemma CheckUniqueExcludesOwnRow(users: seq<User>, key: User -> string, value: string, id: int, conflict: string)
    requires UniqueIds(users)
    requires forall i, j :: 0 <= i < |users| && 0 <= j < |users| && key(users[i]) == key(users[j]) ==> i == j
    ensures CheckUnique(users, key, value, Some(id), conflict).Ok? <==>
              (forall u :: u in users && key(u) == value ==> u.id == id)
  {
    var r := CheckUnique(users, key, value, Some(id), conflict);
    match Query.First(users, (u: User) => key(u) == value)
    case None =>
    case Some(i) =>
      if r.Ok? {
        forall u | u in users && key(u) == value
          ensures u.id == id
        {
          var j :| 0 <= j < |users| && users[j] == u;
          assert j == i;
        }
      }
  }

  /** `create_user`: the email is checked first, then the CPF; on success the
      table grows by exactly the new user, whose password is the hash of the
      given one. */
  function CreateUser(db: Store, data: UserCreate, hash: string -> string): (r: Result<Saved>)
    ensures (exists u :: u in db.users && u.email == data.email) ==> r == Err(CONFLICT, EMAIL_ALREADY_REGISTERED)
    ensures ((forall u :: u in db.users ==> u.email != data.email)
              && (exists u :: u in db.users && u.cpf == data.cpf)) ==> r == Err(CONFLICT, CPF_ALREADY_REGISTERED)
    ensures r.Ok? <==> forall u :: u in db.users ==> u.email != data.email && u.cpf != data.cpf
    ensures r.Ok? ==>
              && r.value.db.users == db.users + [r.value.user]
              && r.value.db.nextId == db.nextId + 1
              && r.value.user.id == db.nextId
              && r.value.user.name == data.name
              && r.value.user.cpf == data.cpf
              && r.value.user.email == data.email
              && r.value.user.password == hash(data.password)
              && r.value.user.role == data.role
  {
    if CheckUniqueEmail(db.users, data.email, None).Err? then
      Err(CONFLICT, EMAIL_ALREADY_REGISTERED)
    else if CheckUniqueCpf(db.users, data.cpf, None).Err? then
      Err(CONFLICT, CPF_ALREADY_REGISTERED)
    else
      var user := User(db.nextId, data.name, data.cpf, data.email, hash(data.password), data.role);
      Ok(Saved(Store(db.users + [user], db.nextId + 1), user))
  }

  /** `create_user` as written: the create schema declares no `role`, so
      reading `user_data.role` raises an `AttributeError` (500) on every
      request that passes both uniqueness checks. */
  function CreateUserAsWritten(db: Store, data: UserCreate, hash: string -> string): (r: Result<Saved>)
    ensures r.Err?
    ensures (exists u :: u in db.users && u.email == data.email) ==> r == Err(CONFLICT, EMAIL_ALREADY_REGISTERED)
    ensures ((forall u :: u in db.users ==> u.email != data.email)
              && (exists u :: u in db.users && u.cpf == data.cpf)) ==> r == Err(CONFLICT, CPF_ALREADY_REGISTERED)
    ensures (forall u :: u in db.users ==> u.email != data.email && u.cpf != data.cpf)
              ==> r == Err(INTERNAL_ERROR, MISSING_ROLE)
  {
    if CheckUniqueEmail(db.users, data.email, None).Err? then
      Err(CONFLICT, EMAIL_ALREADY_REGISTERED)
    else if CheckUniqueCpf(db.users, data.cpf, None).Err? then
      Err(CONFLICT, CPF_ALREADY_REGISTERED)
    else
      Err(INTERNAL_ERROR, MISSING_ROLE)
  }

  /** No registration can succeed as written: wherever the intended service
      stores the new user, the code as written answers 500, and the two agree
      on every conflict. */
  lemma CreateUserMissingRole(db: Store, data: UserCreate, hash: string -> string)
    ensures CreateUser(db, data, hash).Ok? ==> CreateUserAsWritten(db, data, hash) == Err(INTERNAL_ERROR, MISSING_ROLE)
    ensures CreateUser(db, data, hash).Err? ==> CreateUserAsWritten(db, data, hash) == CreateUser(db, data, hash)
  {
  }

  /** The field-by-field assignment loop of `update_user`. */
  function ApplyUpdate(u: User, data: UserUpdate, hash: string -> string): User {
    User(
      u.id,
      if data.name.Some? then data.name.value else u.name,
      if data.cpf.Some? then data.cpf.value else u.cpf,
      if data.email.Some? then data.email.value else u.email,
      if data.password.Some? then hash(data.password.value) else u.password,
      if data.role.Some? then data.role.value else u.role)
  }

  /** `update_user`: ownership, then existence, then the role guard, then the
      email and CPF conflict checks that ignore the updated row itself. */
  function UpdateUser(db: Store, userId: int, data: UserUpdate, caller: User, hash: string -> string): (r: Result<Saved>)
    ensures caller.id != userId && !IsAdmin(caller) ==> r == Err(FORBIDDEN, ACCESS_DENIED_UPDATE)
    ensures ((caller.id == userId || IsAdmin(caller)) && (forall u :: u in db.users ==> u.id != userId))
              ==> r == Err(NOT_FOUND, USER_NOT_FOUND)
    ensures (caller.id == userId && !IsAdmin(caller) && data.role.Some? && (exists u :: u in db.users && u.id == userId))
              ==> r == Err(FORBIDDEN, ADMIN_ROLE_REQUIRED)
    ensures r.Err? && r.status == CONFLICT ==>
              (data.email.Some? && exists u :: u in db.users && u.email == data.email.value && u.id != userId)
              || (data.cpf.Some? && exists u :: u in db.users && u.cpf == data.cpf.value && u.id != userId)
    ensures r.Ok? ==> r.value.user.id == userId && |r.value.db.users| == |db.users| && r.value.db.nextId == db.nextId
    ensures r.Ok? ==> data.role.Some? ==> IsAdmin(caller)
    ensures (&& (caller.id == userId || IsAdmin(caller))
             && (exists u :: u in db.users && u.id == userId)
             && (data.role.Some? ==> IsAdmin(caller))
             && (data.email.Some? ==> forall u :: u in db.users && u.email == data.email.value ==> u.id == userId)
             && (data.cpf.Some? ==> forall u :: u in db.users && u.cpf == data.cpf.value ==> u.id == userId))
            ==> r.Ok?
  {
    if caller.id != userId && !IsAdmin(caller) then
      Err(FORBIDDEN, ACCESS_DENIED_UPDATE)
    else
      match GetUserById(db, userId, caller)
      case Err(s, d) => Err(s, d)
      case Ok(user) =>
        if data.role.Some? && !IsAdmin(caller) then
          Err(FORBIDDEN, ADMIN_ROLE_REQUIRED)
        else if data.email.Some? && CheckUniqueEmail(db.users, data.email.value, Some(userId)).Err? then
          Err(CONFLICT, EMAIL_ALREADY_REGISTERED)
        else if data.cpf.Some? && CheckUniqueCpf(db.users, data.cpf.value, Some(userId)).Err? then
          Err(CONFLICT, CPF_ALREADY_REGISTERED)
        else
          var i := IndexOfId(db.users, userId).value;
          var updated := ApplyUpdate(db.users[i], data, hash);
          Ok(Saved(db.(users := db.users[i := updated]), updated))
  }

  /** With unique ids, a new email that another row already holds makes an
      otherwise allowed update a 409. */
  lemma UpdateEmailConflict(db: Store, userId: int, data: UserUpdate, caller: User, hash: string -> string)
    requires Valid(db)
    requires caller.id == userId || IsAdmin(caller)
    requires exists u :: u in db.users && u.id == userId
    requires data.role.Some? ==> IsAdmin(caller)
    requires data.email.Some? && exists u :: u in db.users && u.email == data.email.value && u.id != userId
    ensures UpdateUser(db, userId, data, caller, hash) == Err(CONFLICT, EMAIL_ALREADY_REGISTERED)
  {
    CheckUniqueExcludesOwnRow(db.users, Email, data.email.value, userId, EMAIL_ALREADY_REGISTERED);
  }

  /** With unique ids, a new CPF that another row already holds makes an
      otherwise allowed update a 409, once the email has passed its check. */
  lemma UpdateCpfConflict(db: Store, userId: int, data: UserUpdate, caller: User, hash: string -> string)
    requires Valid(db)
    requires caller.id == userId || IsAdmin(caller)
    requires exists u :: u in db.users && u.id == userId
    requires data.role.Some? ==> IsAdmin(caller)
    requires data.email.Some? ==> forall u :: u in db.users && u.email == data.email.value ==> u.id == userId
    requires data.cpf.Some? && exists u :: u in db.users && u.cpf == data.cpf.value && u.id != userId
    ensures UpdateUser(db, userId, data, caller, hash) == Err(CONFLICT, CPF_ALREADY_REGISTERED)
  {
    CheckUniqueExcludesOwnRow(db.users, Cpf, data.cpf.value, userId, CPF_ALREADY_REGISTERED);
  }

  /** A successful update changes only the supplied fields of the target user
      (a new password is stored hashed) and leaves every other user alone. */
  lemma UpdateChangesOnlySuppliedFields(db: Store, userId: int, data: UserUpdate, caller: User, hash: string -> string, i: nat)
    requires Valid(db)
    requires i < |db.users| && db.users[i].id == userId
    requires UpdateUser(db, userId, data, caller, hash).Ok?
    ensures var r := UpdateUser(db, userId, data, caller, hash).value;
      && r.db.users[i] == r.user
      && (data.name.Some? ==> r.user.name == data.name.value)
      && (data.name.None? ==> r.user.name == db.users[i].name)
      && (data.cpf.Some? ==> r.user.cpf == data.cpf.value)
      && (data.cpf.None? ==> r.user.cpf == db.users[i].cpf)
      && (data.email.Some? ==> r.user.email == data.email.value)
      && (data.email.None? ==> r.user.email == db.users[i].email)
      && (data.password.Some? ==> r.user.password == hash(data.password.value))
      && (data.password.None? ==> r.user.password == db.users[i].password)
      && (data.role.Some? ==> r.user.role == data.role.value)
      && (data.role.None? ==> r.user.role == db.users[i].role)
      && (forall j :: 0 <= j < |db.users| && j != i ==> r.db.users[j] == db.users[j])
  {
    var k := IndexOfId(db.users, userId);
    assert k.Some?;
    assert k.value == i;
  }

  /** `delete_user`: nobody may delete themselves, not even an admin; otherwise
      the lookup's refusals apply and the found row is removed. */
  function DeleteUser(db: Store, userId: int, caller: User): (r: Result<Store>)
    ensures userId == caller.id ==> r == Err(FORBIDDEN, CANNOT_DELETE_OWN_USER)
    ensures userId != caller.id && !IsAdmin(caller) ==> r == Err(FORBIDDEN, ACCESS_DENIED)
    ensures userId != caller.id && IsAdmin(caller) ==> (r.Ok? <==> exists u :: u in db.users && u.id == userId)
    ensures (userId != caller.id && IsAdmin(caller) && forall u :: u in db.users ==> u.id != userId)
              ==> r == Err(NOT_FOUND, USER_NOT_FOUND)
    ensures r.Ok? ==> |r.value.users| == |db.users| - 1 && r.value.nextId == db.nextId
    ensures r.Ok? ==> forall u :: u in r.value.users ==> u in db.users
  {
    if userId == caller.id then
      Err(FORBIDDEN, CANNOT_DELETE_OWN_USER)
    else
      match GetUserById(db, userId, caller)
      case Err(s, d) => Err(s, d)
      case Ok(_) =>
        var i := IndexOfId(db.users, userId).value;
        Ok(db.(users := db.users[..i] + db.users[i + 1..]))
  }

  /** `delete_user` as written: its lookup is `get_user_by_id` as written, so
      a non-admin deleting another user meets the misspelt attribute. */
  function DeleteUserAsWritten(db: Store, userId: int, caller: User): (r: Result<Store>)
    ensures userId != caller.id && !IsAdmin(caller) ==> r == Err(INTERNAL_ERROR, MISSING_ACESS_DENIED)
    ensures userId == caller.id || IsAdmin(caller) ==> r == DeleteUser(db, userId, caller)
    ensures userId == caller.id ==> r == Err(FORBIDDEN, CANNOT_DELETE_OWN_USER)
    ensures (userId != caller.id && IsAdmin(caller) && forall u :: u in db.users ==> u.id != userId)
              ==> r == Err(NOT_FOUND, USER_NOT_FOUND)
    ensures userId != caller.id && IsAdmin(caller) ==> (r.Ok? <==> exists u :: u in db.users && u.id == userId)
  {
    if userId == caller.id then
      Err(FORBIDDEN, CANNOT_DELETE_OWN_USER)
    else
      match GetUserByIdAsWritten(db, userId, caller)
      case Err(s, d) => Err(s, d)
      case Ok(_) =>
        var i := IndexOfId(db.users, userId).value;
        Ok(db.(users := db.users[..i] + db.users[i + 1..]))
  }

  /** The misspelling reaches deletion too: a non-admin deleting another user
      gets a server error where the intended answer is 403, whether or not
      the user exists. */
  lemma DeleteAccessDeniedTypo(db: Store, userId: int, caller: User)
    requires userId != caller.id && !IsAdmin(caller)
    ensures DeleteUserAsWritten(db, userId, caller).status == INTERNAL_ERROR
    ensures DeleteUser(db, userId, caller) == Err(FORBIDDEN, ACCESS_DENIED)
  {
  }

  /** Cutting row `i` out of a table with unique ids leaves exactly the rows
      with another id. */
  lemma RemoveRowById(users: seq<User>, i: nat)
    requires UniqueIds(users)
    requires i < |users|
    ensures forall u :: u in users[..i] + users[i + 1..] <==> u in users && u.id != users[i].id
  {
    var rest := users[..i] + users[i + 1..];
    forall u
      ensures u in rest <==> u in users && u.id != users[i].id
    {
      if u in rest {
        var j :| 0 <= j < |rest| && rest[j] == u;
        if j < i {
          assert users[j] == u;
        } else {
          assert users[j + 1] == u;
        }
      }
      if u in users && u.id != users[i].id {
        var j :| 0 <= j < |users| && users[j] == u;
        if j < i {
          assert rest[j] == u;
        } else {
          assert j != i;
          assert rest[j - 1] == u;
        }
      }
    }
  }

  /** With unique ids, a successful delete removes exactly the user with that id. */
  lemma DeleteRemovesExactlyThatUser(db: Store, userId: int, caller: User)
    requires Valid(db)
    requires DeleteUser(db, userId, caller).Ok?
    ensures forall u :: u in DeleteUser(db, userId, caller).value.users <==> u in db.users && u.id != userId
  {
    var i := IndexOfId(db.users, userId).value;
    assert DeleteUser(db, userId, caller).value.users == db.users[..i] + db.users[i + 1..];
    RemoveRowById(db.users, i);
  }

  /** The optional `ILIKE` filters of `list_users`; empty strings filter nothing. */
  predicate UserMatches(u: User, name: Option<string>, email: Option<string>) {
    && (name.Some? && Truthy(name.value) ==> ILike(u.name, name.value))
    && (email.Some? && Truthy(email.value) ==> ILike(u.email, email.value))
  }

  function MatchingUsers(db: Store, name: Option<string>, email: Option<string>): seq<User> {
    Query.Filter(db.users, (u: User) => UserMatches(u, name, email))
  }

  /** `list_users`: the matching users in table order, then `OFFSET skip LIMIT limit`. */
  function ListUsers(db: Store, skip: nat, limit: nat, name: Option<string>, email: Option<string>): (r: seq<User>)
    requires name.Some? ==> NoWildcards(name.value)
    requires email.Some? ==> NoWildcards(email.value)
    ensures |r| <= limit
    ensures skip >= |MatchingUsers(db, name, email)| ==> r == []
    ensures skip < |MatchingUsers(db, name, email)| ==> |r| == Query.Min(limit, |MatchingUsers(db, name, email)| - skip)
    ensures forall k :: 0 <= k < |r| ==> skip + k < |MatchingUsers(db, name, email)| && r[k] == MatchingUsers(db, name, email)[skip + k]
    ensures forall u :: u in r ==> u in db.users
    ensures forall u :: u in r && name.Some? && name.value != "" ==> ILike(u.name, name.value)
    ensures forall u :: u in r && email.Some? && email.value != "" ==> ILike(u.email, email.value)
  {
    Query.Page(MatchingUsers(db, name, email), skip, limit)
  }

  /** Without (truthy) filters, listing is a plain window onto the table. */
  lemma ListUsersUnfiltered(db: Store, skip: nat, limit: nat, name: Option<string>, email: Option<string>)
    requires name.None? || name.value == ""
    requires email.None? || email.value == ""
    ensures ListUsers(db, skip, limit, name, email) == Query.Page(db.users, skip, limit)
  {
    Query.FilterAll(db.users, (u: User) => UserMatches(u, name, email));
  }

  /** A window large enough to hold the whole table returns every match. */
  lemma ListUsersComplete(db: Store, limit: nat, name: Option<string>, email: Option<string>, u: User)
    requires name.Some? ==> NoWildcards(name.value)
    requires email.Some? ==> NoWildcards(email.value)
    requires limit >= |db.users|
    requires u in db.users && UserMatches(u, name, email)
    ensures u in ListUsers(db, 0, limit, name, email)
  {
    var f := Query.Filter(db.users, (v: User) => UserMatches(v, name, email));
    var j :| 0 <= j < |f| && f[j] == u;
    assert Query.Page(f, 0, limit)[j] == u;
  }

  /** Appending a row with the counter's id and an email and CPF no row holds
      keeps the table valid. */
  lemma AppendRowKeepsValid(db: Store, user: User)
    requires Valid(db)
    requires user.id == db.nextId
    requires forall j :: 0 <= j < |db.users| ==> db.users[j].email != user.email && db.users[j].cpf != user.cpf
    ensures Valid(Store(db.users + [user], db.nextId + 1))
  {
    var s := db.users + [user];
    assert forall j :: 0 <= j < |db.users| ==> s[j] == db.users[j];
  }

  /** Creating a user keeps ids, emails and CPFs unique. */
  lemma CreatePreservesValid(db: Store, data: UserCreate, hash: string -> string)
    requires Valid(db)
    ensures CreateUser(db, data, hash).Ok? ==> Valid(CreateUser(db, data, hash).value.db)
  {
    var r := CreateUser(db, data, hash);
    if r.Ok? {
      forall j | 0 <= j < |db.users|
        ensures db.users[j].email != data.email && db.users[j].cpf != data.cpf
      {
        assert db.users[j] in db.users;
      }
      AppendRowKeepsValid(db, r.value.user);
    }
  }

  /** Replacing row `i` by a row with the same id whose email and CPF no other
      row holds keeps the table valid. */
  lemma ReplaceRowKeepsValid(db: Store, i: nat, updated: User)
    requires Valid(db)
    requires i < |db.users| && updated.id == db.users[i].id
    requires forall j :: 0 <= j < |db.users| && j != i ==> db.users[j].email != updated.email
    requires forall j :: 0 <= j < |db.users| && j != i ==> db.users[j].cpf != updated.cpf
    ensures Valid(db.(users := db.users[i := updated]))
  {
  }

  /** Updating a user keeps ids, emails and CPFs unique: the conflict checks
      reject any email or CPF held by another row. */
  lemma UpdatePreservesValid(db: Store, userId: int, data: UserUpdate, caller: User, hash: string -> string)
    requires Valid(db)
    ensures UpdateUser(db, userId, data, caller, hash).Ok? ==> Valid(UpdateUser(db, userId, data, caller, hash).value.db)
  {
    var r := UpdateUser(db, userId, data, caller, hash);
    if r.Ok? {
      var i := IndexOfId(db.users, userId).value;
      var updated := r.value.user;
      UpdateChangesOnlySuppliedFields(db, userId, data, caller, hash, i);
      assert r.value.db == db.(users := db.users[i := updated]);
      if data.email.Some? {
        CheckUniqueExcludesOwnRow(db.users, Email, data.email.value, userId, EMAIL_ALREADY_REGISTERED);
      }
      if data.cpf.Some? {
        CheckUniqueExcludesOwnRow(db.users, Cpf, data.cpf.value, userId, CPF_ALREADY_REGISTERED);
      }
      forall j | 0 <= j < |db.users| && j != i
        ensures db.users[j].email != updated.email && db.users[j].cpf != updated.cpf
      {
        assert db.users[j] in db.users;
      }
      ReplaceRowKeepsValid(db, i, updated);
    }
  }

  /** Cutting a row out keeps ids, emails and CPFs unique and the counter past
      every id. */
  lemma RemoveRowKeepsValid(db: Store, i: nat)
    requires Valid(db)
    requires i < |db.users|
    ensures Valid(db.(users := db.users[..i] + db.users[i + 1..]))
  {
    var s := db.users[..i] + db.users[i + 1..];
    forall a | 0 <= a < |s|
      ensures s[a] == db.users[if a < i then a else a + 1]
    {
    }
  }

  /** Deleting a user keeps the table valid. */
  lemma DeletePreservesValid(db: Store, userId: int, caller: User)
    requires Valid(db)
    ensures DeleteUser(db, userId, caller).Ok? ==> Valid(DeleteUser(db, userId, caller).value)
  {
    if DeleteUser(db, userId, caller).Ok? {
      var i := IndexOfId(db.users, userId).value;
      assert DeleteUser(db, userId, caller).value == db.(users := db.users[..i] + db.users[i + 1..]);
      RemoveRowKeepsValid(db, i);
    }
  }
}
